=== FILE: README.md ===
# Study tracker notification engine, modelled in Dafny

The study tracker is a web app with a calendar of study tasks and a
notification engine around it. This project models that engine and the small
stores behind it as pure Dafny functions over immutable records, and proves
what each part promises.

- **Page-side notification manager** (`NotificationManager`). The display
  guard; arming a task's reminder and start timers within a one-day horizon;
  the completion notification; the daily 09:00 and 18:00 reminders;
  rescheduling after the task list changes.
- **Settings** (`NotificationSettings`). The two readers of the stored
  settings (the manager and the settings panel), the panel's save, its lead
  time choices, and its master switch. The push switch is modelled with the
  push client it drives.
- **Service worker** (`ServiceWorker`). Both copies are covered; `Variant`
  tells them apart where their strings differ.
  - The once-a-minute check over the stored task list, with its two sent
    flags per task.
  - Timer arming with a fixed five-minute lead.
  - The `UPDATE_TASKS` message.
  - Merging a push payload over the worker's defaults.
  - Routing notification clicks.
- **Push routes** (`PushRoutes`, over the `PushSubscription` registry).
  - Subscribe as an upsert by endpoint; unsubscribe as soft deactivation.
  - Notify as a fan-out to the active records, where the gateway's outcome
    for each record is an input.
  - The two task payload routes and the status counts.
- **Task store** (`CalendarTask`, `TaskRoutes`).
  - Schema validation and defaults.
  - Create, and update or delete by id and owner.
  - Listing, the date range and the "upcoming within the hour" filter.
- **Page state** (`TrackerApp`, `CalendarView`, `PushClient`).
  - List updates after each backend answer; backend-to-page normalisation.
  - The month grid, day and month filters, the month order and the cell
    preview.
  - The save guard and the complete button.
  - The push client's key conversion and subscription guards; the relay of
    clicks from the worker to the page.

Time is modelled as plain integers:

- A date is an abstract day number.
- A time of day is the stored text (`"HH:MM"`), read by `Clock.ParseClock`
  into a minute of the day. `None` stands for JavaScript's `NaN`.
- Instants are milliseconds: `day * 86400000 + minute * 60000`.
- Timers are not run. An armed timer is returned as its delay.

## Model

| member | source | states |
|---|---|---|
| CalendarTask.ParseCategory | backend/models/CalendarTask.js:7-11 | only the five category names are accepted, and the value read back names the same string (with CategoryRoundTrip: every category is accepted under its own name) |
| CalendarTask.CategoryRoundTrip | backend/models/CalendarTask.js:9 | every category is accepted back under its own name |
| CalendarTask.ParsePriority | backend/models/CalendarTask.js:15-19 | only high, medium and low are accepted, and the value read back names the same string |
| CalendarTask.PriorityRoundTrip | backend/models/CalendarTask.js:17 | every priority is accepted back under its own name |
| CalendarTask.Trim | backend/models/CalendarTask.js:5-6 | the trimmed text is a contiguous slice of the input with only white space cut at either end, and it neither starts nor ends with white space |
| CalendarTask.TrimEmptyIffBlank | backend/models/CalendarTask.js:5 | a trimmed title is empty exactly when the title is all white space, so the required check rejects blank titles |
| CalendarTask.TrimKeepsTrimmed | backend/models/CalendarTask.js:5-6 | trimming leaves text without surrounding white space unchanged |
| CalendarTask.Construct | backend/models/CalendarTask.js:3-25 | a write succeeds exactly when the trimmed title and the time are non-empty and both enums name a value; the stored task keeps the id, date, times and owner, trims title and description, and starts not completed and not notified |
| CalendarTask.SchemaDefaults | backend/models/CalendarTask.js:6-22 | a task given only its required fields gets category study, priority medium, empty description and end time, owner "default", and both flags false |
| Clock.ParseClock | backend/routes/calendarTasks.js:136-137 | a time with no colon reads as NaN, and a time that reads as a number has a digits-only hour part |
| Clock.ParseValid | backend/routes/calendarTasks.js:136-137 | a well-formed "HH:MM" reads as hours times 60 plus minutes, a minute below one day |
| Clock.FormatThenParse | backend/models/CalendarTask.js:13 | reading an "HH:MM" rendering gives back the minute of day |
| Clock.ParseThenFormat | backend/models/CalendarTask.js:13-14 | every well-formed "HH:MM" is the rendering of the minute it denotes, so reading is injective on well-formed times |
| TaskRoutes.Create | backend/routes/calendarTasks.js:44-67 | a missing title, date or time is a 400 with the store unchanged; success appends exactly one task under the new id, keeping ids unique |
| TaskRoutes.CreateDefaults | backend/routes/calendarTasks.js:46-61 | a body naming only title, date and time yields description '', category study, end time '', priority medium and owner 'default' |
| TaskRoutes.ApplyPatch | backend/routes/calendarTasks.js:73-88 | with validators on, an update is rejected, whatever the stored task, exactly when a given title trims to '', a given time is '', or a given category or priority is not one of its enum names; otherwise every given field is written (title and description trimmed), every absent field is kept, id, owner and creation time never change, and an empty update changes nothing |
| TaskRoutes.Find | backend/routes/calendarTasks.js:76 | finds the first task with this id and owner, or reports that none exists |
| TaskRoutes.Update | backend/routes/calendarTasks.js:70-99 | an id that does not cast or an update that fails validation is a 500 with the store unchanged, whether or not a task matches; otherwise no match is a 404 with the store unchanged, and a match has its first matching task replaced by the patched task, which the reply returns; nothing else changes and ids stay unique |
| TaskRoutes.Delete | backend/routes/calendarTasks.js:102-117 | an id that does not cast is a 500 with the store unchanged; otherwise no match is a 404 with the store unchanged, and a match removes exactly one task |
| TaskRoutes.DeleteRemovesExactly | backend/routes/calendarTasks.js:107-113 | with unique ids a delete equals filtering out the matched task: every other task stays, in order, and ids stay unique |
| TaskRoutes.TimeThenCreatedIsTotal | backend/routes/calendarTasks.js:16 | the list order (time text, then creation) is a total preorder, so sorting by it is well defined |
| TaskRoutes.DateThenTimeIsTotal | backend/routes/calendarTasks.js:35 | the range order (date, then time text) is a total preorder |
| TaskRoutes.ByTimeIsTotal | backend/routes/calendarTasks.js:132 | the upcoming order (time text) is a total preorder |
| TaskRoutes.List | backend/routes/calendarTasks.js:7-21 | the result holds exactly the owner's tasks (on the given day, if any) as a permutation of the store's, sorted by time then creation |
| TaskRoutes.Range | backend/routes/calendarTasks.js:24-41 | a missing bound is a 400; otherwise a permutation of the owner's tasks with start <= date <= end (each exactly as often as stored), sorted by date then time |
| TaskRoutes.Upcoming | backend/routes/calendarTasks.js:120-145 | a permutation of the owner's tasks dated today, open, not yet notified, with a minute of day in [current, current + 60] (each exactly as often as stored), sorted by time |
| TaskRoutes.RangeOneDayIsDayList | backend/routes/calendarTasks.js:9-35 | a range from a day to the same day returns the same tasks, with the same copies, as the list of that day |
| TaskRoutes.UpcomingInDayList | backend/routes/calendarTasks.js:122-139 | the upcoming tasks are a sub-multiset of the day's list: the route never returns a task the day's list lacks |
| TaskRoutes.MarkedNotUpcoming | backend/routes/calendarTasks.js:72-88 | in the store the update route leaves after marking a task notified, with unique ids, no task with that id is upcoming, at any day or minute |
| TaskRoutes.FormattedDue | backend/routes/calendarTasks.js:136-138 | a rendered time is due within the hour exactly when its minute lies between now and an hour from now |
| TaskRoutes.UpcomingWindowEdges | backend/routes/calendarTasks.js:138 | the hour window includes both ends and excludes the minute after it |
| PushSubscription.NewSubscription | backend/models/PushSubscription.js:19-34 | a new record is active, owned by 'anonymous' unless a user is named, and created and last used now |
| PushSubscription.IndexOf | backend/models/PushSubscription.js:4-8 | finds the record for an endpoint, or reports that none exists |
| PushRoutes.Subscribe | backend/routes/pushNotifications.js:25-61 | a missing endpoint, keys or key string is a 400 with no change; a known endpoint gets the new keys, `lastUsed` now and is active again, with nothing added; an unknown one adds one record |
| PushRoutes.SubscribeKeepsValid | backend/routes/pushNotifications.js:34-50 | subscribing keeps exactly one complete record per endpoint |
| PushRoutes.ResubscribeReplacesKeys | backend/routes/pushNotifications.js:36-41 | subscribing twice with one endpoint leaves a single record for it, active and holding the second keys, and the second call adds nothing |
| PushRoutes.Unsubscribe | backend/routes/pushNotifications.js:64-83 | a missing endpoint is a 400; otherwise the reply is success and only that endpoint's record may change, by clearing its active flag |
| PushRoutes.UnsubscribeOnlyThatEndpoint | backend/routes/pushNotifications.js:72-78 | every other record is untouched, the endpoint's record is inactive, and an unknown endpoint changes nothing |
| PushRoutes.Status | backend/routes/pushNotifications.js:300-310 | the active count never exceeds the total, which is the registry's size |
| PushRoutes.PayloadOf | backend/routes/pushNotifications.js:100-110 | title and body pass through; a falsy icon or tag becomes '/manifest-icon-192.png' or 'study-tracker-notification'; absent data becomes {}; absent actions become view/dismiss |
| PushRoutes.Attempt | backend/routes/pushNotifications.js:138-150 | a delivery updates `lastUsed`; a 404 or 410 clears `isActive`; any other failure leaves the record as it was |
| PushRoutes.FanOut | backend/routes/pushNotifications.js:112-156 | one result per active record, and the registry keeps its size |
| PushRoutes.FanOutResults | backend/routes/pushNotifications.js:142-152 | the j-th result names the j-th active record's endpoint and succeeds exactly when its delivery did |
| PushRoutes.FanOutRecords | backend/routes/pushNotifications.js:94-154 | each active record is attempted with the outcome at its rank among the active records, and inactive records are untouched |
| PushRoutes.FanOutDeactivatesGone | backend/routes/pushNotifications.js:147-150 | after a fan-out, the active count drops by exactly the number of 404/410 outcomes |
| PushRoutes.SuccessesPlusFailures | backend/routes/pushNotifications.js:157-158 | successful plus failed is the number of results |
| PushRoutes.SuccessCountMatches | backend/routes/pushNotifications.js:157 | counting successful results counts the deliveries |
| PushRoutes.Notify | backend/routes/pushNotifications.js:86-169 | a falsy title or body is a 400 with no change; no active record means success with no attempt; otherwise the reply is a send carrying the built payload, the registry and results are exactly the fan-out's, each result is the delivery outcome for that active record's endpoint, every record is updated as the fan-out prescribes (failure count, last-used time, deactivation), successes equal deliveries, successes plus failures equal attempts, and the active count drops by the 404/410 outcomes |
| PushRoutes.TaskReminderRequest | backend/routes/pushNotifications.js:172-194 | a falsy task id or title is a 400; otherwise the tag is 'task-reminder-' + id and the data carry the type, the id and the lead, which defaults to 5 only when absent |
| PushRoutes.TaskCompletedRequest | backend/routes/pushNotifications.js:212-241 | a falsy task id or title is a 400; otherwise the tag is 'task-completed-' + id and the body is the title followed by one of the twelve messages |
| PushRoutes.TaskReminderNeverInvalidAtNotify | backend/routes/pushNotifications.js:196-201 | a reminder the route accepts is never rejected by notify for a missing title or body |
| Common.MessageIndex | backend/routes/pushNotifications.js:236 | the message index for a draw in [0, 1) lies in [0, 12) |
| NotificationSettings.Load | src/utils/notificationManager.js:44-60 | stored keys override the defaults and missing keys take them (off; three kinds on; lead 5); nothing stored or a parse error gives exactly the defaults |
| NotificationSettings.Save | frontend/src/components/NotificationSettings.jsx:35-47 | the save writes all five fields |
| NotificationSettings.SaveThenLoad | frontend/src/components/NotificationSettings.jsx:36-43 | the manager reads back exactly what the panel saved |
| NotificationSettings.PanelLoad | frontend/src/components/NotificationSettings.jsx:14-21 | enabled only when stored true; the three kinds on unless stored false; a missing or 0 lead reads as 5; an unparsable entry is an error |
| NotificationSettings.LoadersAgreeUnlessZeroLead | frontend/src/components/NotificationSettings.jsx:21 | the two loaders agree on a stored object exactly when its lead is not 0 |
| NotificationSettings.ChooseLead | frontend/src/components/NotificationSettings.jsx:236-240 | a chosen lead is one of 1, 5, 10, 15, 30 and nothing else changes |
| NotificationSettings.PanelSavesAgree | frontend/src/components/NotificationSettings.jsx:35-47 | after any lead choice the panel and the manager read back the same settings |
| NotificationSettings.ToggleNotifications | frontend/src/components/NotificationSettings.jsx:79-85 | with permission denied nothing changes, because the checkbox at lines 171-178 is disabled; otherwise switching off works; switching on without a grant asks instead and turns on only if the answer is a grant; unsupported browsers stay off |
| NotificationSettings.ToggleOnNeedsGrant | frontend/src/components/NotificationSettings.jsx:49-85 | the switch never goes from off to on without a granted permission, and an on switch turns off exactly when permission is not denied |
| NotificationManager.ShowNotification | src/utils/notificationManager.js:89-100 | nothing is shown unless enabled with permission granted; given options override the defaults (favicon, no interaction, vibrate 100-50-100) |
| NotificationManager.ScheduleTaskReminder | src/utils/notificationManager.js:116-193 | nothing is armed when disabled, task reminders are off, the task has no time or is completed; the reminder is armed iff 0 < delay <= 24 h at start less the lead, the start iff 0 < delay <= 24 h at start; tags reminder-id and task-id |
| NotificationManager.ReminderPrecedesStart | src/utils/notificationManager.js:130-133 | with a positive lead the reminder's delay is shorter than the start's, by exactly the lead |
| NotificationManager.StartIgnoresLead | src/utils/notificationManager.js:170 | the start arm is the same whatever the lead |
| NotificationManager.PastReminderKeepsStart | src/utils/notificationManager.js:136-170 | a task starting within the day whose reminder is past still arms its start |
| NotificationManager.ShowTaskCompletion | src/utils/notificationManager.js:196-238 | nothing when disabled or completion notifications are off; a push only with an id and a subscription; the local notice only with permission, tagged 'completion' and carrying one of the twelve messages |
| NotificationManager.OpenToday | src/utils/notificationManager.js:245 | exactly the open tasks dated today |
| NotificationManager.ScheduleDailyReminders | src/utils/notificationManager.js:240-316 | nothing when disabled, daily reminders are off or no open task is dated today; the morning (09:00) and evening (18:00) are each armed iff still ahead |
| NotificationManager.EveningText | src/utils/notificationManager.js:288-297 | the title is "Evening Check-in" iff tasks remain and "Great Job!" iff none do |
| NotificationManager.EveningAsWritten | src/utils/notificationManager.js:287-297 | the evening text as written, counted over the list captured when arming |
| NotificationManager.EveningNeverCongratulates | src/utils/notificationManager.js:245-297 | whenever the evening is armed, the as-written text is "Evening Check-in", never "Great Job!" |
| NotificationManager.EveningSummary | src/utils/notificationManager.js:282-297 | counted over the list at firing time, the text is "Great Job!" iff no open task of today remains |
| NotificationManager.EveningSummaryCongratulatesIffAllDone | src/utils/notificationManager.js:288-297 | the corrected evening congratulates exactly when every task dated today is completed |
| NotificationManager.PlanEach | src/utils/notificationManager.js:375-379 | one reminder decision per task, in order |
| NotificationManager.RescheduleNotifications | src/utils/notificationManager.js:364-380 | the whole list goes to an active worker, the daily reminders are planned, and each open task gets its own decision |
| NotificationManager.CompletedArmsNothing | src/utils/notificationManager.js:117 | a completed task arms nothing, so skipping completed tasks when rescheduling loses nothing |
| ServiceWorker.CheckOne | public/sw.js:148-189 | an examined task's reminder shows iff its minute is in [due - 5, due - 3) and it was not yet sent, likewise the start in [due, due + 2); each flag becomes set when its event shows |
| ServiceWorker.OneEventPerCheck | public/sw.js:155-174 | the two windows are disjoint, so one check never shows both events of a task |
| ServiceWorker.NotesSound | public/sw.js:148-189 | every note shown names a task in range whose event was due and unsent, with that event's tag |
| ServiceWorker.NotesComplete | public/sw.js:148-189 | every due, unsent event of an examined task is shown |
| ServiceWorker.NotesOrdered | public/sw.js:148 | notes come in list order, at most one per task |
| ServiceWorker.Check | public/sw.js:141-196 | one minute check keeps the tasks, sets exactly the flags of the events it shows, and shows exactly the due, unsent events, without repeats |
| ServiceWorker.Run | public/sw.js:141-189 | checks that each read their own day and minute, across midnight too, keep the tasks and never clear a flag |
| ServiceWorker.SentStaysSilent | public/sw.js:144-189 | an event whose flag is set is never shown by later checks over the same stored list, whatever day and minute each check reads |
| ServiceWorker.AtMostOncePerList | public/sw.js:141-189 | however many checks run over one stored list, on one day or across several, no task's reminder or start is shown twice |
| ServiceWorker.SeenThenSilent | public/sw.js:168-187 | an event shown by a check is never shown again by the following checks, whatever day and minute they read |
| ServiceWorker.DueReminderShows | public/sw.js:149-155 | an examined, unreminded task is reminded by the check five minutes before its time |
| ServiceWorker.ScheduleReminder | public/sw.js:354-373 | the reminder timer is armed iff 0 < delay <= 24 h, with tag reminder-id |
| ServiceWorker.ScheduleStart | public/sw.js:376-395 | the start timer is armed iff 0 < delay <= 24 h, with tag task-id |
| ServiceWorker.ScheduleTask | frontend/public/sw.js:360-375 | both arms for a task: the reminder exactly 5 x 60000 ms before the start |
| ServiceWorker.ArmEach | public/sw.js:333-337 | one arming decision per task, in order |
| ServiceWorker.UpdateTasks | public/sw.js:321-340 | the page's list replaces the stored one with every flag cleared, and only open tasks with a time are armed |
| ServiceWorker.WorkerMatchesPageReminder | public/sw.js:342-345 | a reminder the page hands over is armed by the worker with the same delay |
| ServiceWorker.DefaultDisplay | public/sw.js:46-54 | the push defaults: a title, body, icon and tag, no data or actions, interaction required |
| ServiceWorker.MergePush | public/sw.js:45-89 | no or unparsable data shows the defaults; title, body, icon and tag override only when truthy; data defaults to {} and actions to view/dismiss |
| ServiceWorker.NotifyShownAsSent | public/sw.js:57-75 | whatever notify accepts is shown by either worker exactly as sent |
| ServiceWorker.FirstOwnWindow | public/sw.js:103-107 | the first window whose URL contains the origin, or none |
| ServiceWorker.NotificationClick | public/sw.js:92-133 | View or the body focuses the first own window or opens one; other actions do nothing to windows; a task id is posted iff the data are a task reminder with a truthy id |
| TrackerApp.IdOf | src/components/StudyTrackerApp.jsx:110 | the backend id wins when present |
| TrackerApp.Normalise | src/components/StudyTrackerApp.jsx:109-120 | the page's record: the backend id first, a falsy end time as '', a falsy priority as 'medium', everything else as sent |
| TrackerApp.NormaliseStoredTask | src/components/StudyTrackerApp.jsx:48-59 | normalising a stored task keeps its id, dates, end time and priority |
| TrackerApp.NormaliseBlock | src/components/StudyTrackerApp.jsx:69-80 | a block keeps its fields and takes the backend id first |
| TrackerApp.ReplaceWhere | src/components/StudyTrackerApp.jsx:146 | items with the id are replaced, all others stay in place |
| TrackerApp.RemoveWhere | src/components/StudyTrackerApp.jsx:153 | no item with the id remains, every other item keeps all its copies, and nothing new appears |
| TrackerApp.RemoveWhereSplits | src/components/StudyTrackerApp.jsx:98-153 | the removal keeps order: cut anywhere, it is the removal of each piece joined in order, and one item is dropped exactly when it has the id, which together fix the result |
| TrackerApp.CreateThenDelete | src/components/StudyTrackerApp.jsx:122-153 | deleting what was just appended is the same as deleting that id from the old list |
| TrackerApp.RemoveAbsent | src/components/StudyTrackerApp.jsx:153 | deleting an absent id changes nothing |
| TrackerApp.CreateTask | src/components/StudyTrackerApp.jsx:101-124 | a failed answer leaves the list; otherwise exactly one normalised item is appended and earlier items are unchanged |
| TrackerApp.UpdateTask | src/components/StudyTrackerApp.jsx:126-148 | a failed answer leaves the list; otherwise only items with the id are replaced, with length and order kept |
| TrackerApp.DeleteTask | src/components/StudyTrackerApp.jsx:150-154 | a failed answer leaves the list; otherwise the id's tasks go, all others stay with all their copies, and in order: cut anywhere, the result is each piece's removal joined |
| TrackerApp.CreateBlock | src/components/StudyTrackerApp.jsx:69-80 | a failed answer leaves the list; otherwise exactly one block is appended |
| TrackerApp.UpdateBlock | src/components/StudyTrackerApp.jsx:82-93 | a failed answer leaves the list; otherwise only blocks with the id are replaced |
| TrackerApp.DeleteBlock | src/components/StudyTrackerApp.jsx:95-99 | a failed answer leaves the list; otherwise the id's blocks go, all others stay with all their copies, and in order: cut anywhere, the result is each piece's removal joined |
| TrackerApp.CreateThenDeleteTask | src/components/StudyTrackerApp.jsx:122-153 | creating a task and deleting it by its backend id leaves the list as deleting that id alone would |
| CalendarView.GetDaysInMonth | frontend/src/components/CalendarSchedule.jsx:82-101 | the leading empty cells, then the days 1..n in order; the length is their sum |
| CalendarView.TasksForDate | frontend/src/components/CalendarSchedule.jsx:103-107 | nothing for an empty cell; otherwise exactly the tasks dated that day |
| CalendarView.TasksForMonth | frontend/src/components/CalendarSchedule.jsx:216-223 | exactly the tasks whose day falls in the month |
| CalendarView.ByInstantIsTotal | frontend/src/components/CalendarSchedule.jsx:622 | the month order is a total preorder |
| Sorting.InsertStable | frontend/src/components/CalendarSchedule.jsx:622 | inserting an element puts it ahead of the elements ranked level with it and leaves their order alone |
| Sorting.SortByStable | frontend/src/components/CalendarSchedule.jsx:622 | the sort is stable: the elements ranked level with any element come out in the order they went in |
| CalendarView.MonthList | frontend/src/components/CalendarSchedule.jsx:620-622 | the month's tasks as a permutation, earliest first; tasks at the same instant, an untimed task and a 00:00 task included, keep their list order, as a stable sort does |
| CalendarView.UntimedFirstInDay | frontend/src/components/CalendarSchedule.jsx:622 | a task without a time sorts as 00:00, no later than any task of its day |
| CalendarView.DayTasksInMonthList | frontend/src/components/CalendarSchedule.jsx:103-107 | every task shown in a day cell appears in its month's list |
| CalendarView.CellPreview | frontend/src/components/CalendarSchedule.jsx:335-352 | the first two tasks are shown (all of them when fewer), "+N more" iff more than two, and shown plus N is the day's count |
| CalendarView.SaveTask | frontend/src/components/CalendarSchedule.jsx:141-150 | nothing is sent unless title, time and date are filled in; an update of the task being edited, else a create |
| CalendarView.SavedFormHasRequired | frontend/src/components/CalendarSchedule.jsx:142 | a form the page sends always passes the create route's required-field check |
| CalendarView.CompleteTask | frontend/src/components/CalendarSchedule.jsx:181-194 | the update flips `completed`; the celebration fires only on an open task that the answer says is completed |
| CalendarView.CompleteTwice | frontend/src/components/CalendarSchedule.jsx:183-189 | with an honest backend the celebration fires iff the task was open, and a second press restores the task without a second celebration |
| PushClient.PadLength | src/utils/pushNotificationManager.js:66 | fewer than four '=' characters, bringing the length to a multiple of four, none when it already is one |
| PushClient.ToStandardAlphabet | src/utils/pushNotificationManager.js:65-69 | the padded text: each '-' becomes '+' and each '_' becomes '/', other characters kept, then the padding; the result has no '-' or '_' |
| PushClient.StandardThenUrl | src/utils/pushNotificationManager.js:66-69 | a base64url key comes back unchanged after the conversion and its inverse |
| PushClient.CharCodes | src/utils/pushNotificationManager.js:71-77 | one byte per character, equal to its code modulo 256 |
| PushClient.RequestPermission | src/utils/pushNotificationManager.js:47-63 | unsupported or denied is false; granted is true; otherwise the answer decides |
| PushClient.Subscribe | src/utils/pushNotificationManager.js:80-135 | false when unsupported, unregistered or without a key; an existing subscription is reused and reported true without contacting the backend; a new one is posted and the backend's answer decides |
| PushClient.Unsubscribe | src/utils/pushNotificationManager.js:137-164 | true at once when nothing is held; otherwise true exactly when the browser call does not reject and the backend request goes out, and then the held subscription is cleared and its endpoint posted; on failure nothing changes |
| PushClient.PushToggle | frontend/src/components/NotificationSettings.jsx:87-104 | the switch subscribes when off and unsubscribes when on, it changes position exactly when the call succeeds, when on a subscription is held, and when it is switched off the client holds none |
| PushClient.PushSwitchOnNeedsGrant | frontend/src/components/NotificationSettings.jsx:87-91 | the panel's push switch turns on only for a ready client whose permission request succeeded, and a subscription is then held |
| PushClient.PushSwitchOffReleases | frontend/src/components/NotificationSettings.jsx:100-102 | switching push off with both calls going through leaves the switch off, nothing held, and the endpoint posted to the backend |
| PushClient.RefusedSubscriptionIsReusedUnposted | src/utils/pushNotificationManager.js:93-130 | a subscription the backend refused stays held, so the switch shows off, and a second press reuses it, shows on and posts nothing: the backend never stores it |
| PushClient.IsSubscribed | src/utils/pushNotificationManager.js:166-179 | false whenever unsupported or unregistered; otherwise whether the push manager holds a subscription |
| PushClient.SubscribeThenUnsubscribe | src/utils/pushNotificationManager.js:80-164 | a successful subscribe then unsubscribe posts the same endpoint both times and holds nothing after |
| PushClient.ClickMessage | public/sw.js:119-132 | the message a click on a task reminder posts makes the page raise a task-clicked event for exactly that task, and an empty id raises none |
| PushClient.HandleServiceWorkerMessage | src/utils/pushNotificationManager.js:34-45 | a task-clicked event iff the message is NOTIFICATION_CLICKED / view-task with a truthy task id, carrying that id |
| PushClient.ReminderClickReachesPage | backend/routes/pushNotifications.js:180-194 | a task reminder the backend accepts, shown by either worker and clicked, reaches the page as an event with the reminder's task id |

## Left out

- I/O, timers, storage and concurrency. HTTP, `setTimeout` / `setInterval`,
  IndexedDB, `localStorage`, the cache handlers and `Promise.all` are not
  modelled. Each timer is returned as its delay. The fan-out is a sequential
  fold, which is sound because each subscriber's outcome is independent.
- Delivery. VAPID signing, the FCM header and `webpush.sendNotification`
  are not modelled. Each attempt's outcome (delivered, or failed with an
  optional status code) is an input.
- The sub-routes' HTTP self-call to /notify is a direct call to `Notify`.
  A 500 from a thrown error is not modelled, and neither is the water
  reminder route, which carries no logic beyond a fixed payload.
- Dates and time zones. Days are abstract numbers: the backend stores
  "YYYY-MM-DD" text, whose string order agrees with day order. Several
  things are not modelled:
  - the UTC date of `toISOString` against local `getHours` / `setHours`;
  - `new Date(task.date)` parsing as UTC;
  - daylight saving and `setMonth` overflow.

  Which month a day lies in, and the weekday of the first of the month, are
  parameters.
- `Number()` parsing of times is narrowed to digit strings. Leading white
  space, signs, decimals and exponents are not modelled. An empty part reads
  as 0, as in JavaScript.
- `Math.random` is a real draw in [0, 1).
- Emoji in notification titles and bodies are dropped. Action button icons
  and titles differ between call sites; only the `view` / `dismiss`
  defaults are modelled exactly.
- The order of the stored backend record is not modelled beyond a sequence
  with unique ids and endpoints.
- Mongoose behaviour is assumed:
  - `findOneAndUpdate` leaves absent fields unchanged;
  - `trim` and enum validators run on update;
  - a duplicate id is a server error.
- `atob` is not modelled; `PushClient.CharCodes` starts from its output.
  An invalid key makes `atob` throw, which `Subscribe` models as a failed
  creation. The `btoa` encoding of the keys posted to the backend is not
  modelled either.
- The settings panel's load does not catch a parse error. `PanelLoad` returns
  `None` there, and what React does with the thrown error is not modelled.
- Stored settings are assumed to have JSON types matching the defaults.
  Values of other types are not modelled.
- `CalendarView.SortInstant`: a time that does not read as a number is
  sorted as minute 0 of its day. A time that reads as numbers but is out of
  range, such as "25:00" or "10:75", rolls over into later minutes, days
  included: "25:00" sorts as 01:00 of the next day. In the page, both kinds
  make `new Date(date + ' ' + time)` an invalid date, the comparator answers
  `NaN` for every pair involving it, and the resulting order depends on the
  engine.
- TaskRoutes.Update / TaskRoutes.Delete: whether the path id casts to a
  document id is the input `idCasts`. The casting rule itself is not
  modelled.
- `ServiceWorker.UpdateTasks`: the date guard of the `UPDATE_TASKS` filter
  always holds, because dates are day numbers here.
- `ServiceWorker.Check`: a non-examined task keeps its flags. The page's
  records carry no flags, so each `UPDATE_TASKS` resets them; the at-most-once
  property therefore holds per stored list, never across lists. The page's
  timers, the worker's timers and the minute check are separate paths, and
  nothing dedupes across them.
- `NotificationManager.RescheduleNotifications` does not clear earlier
  timers, so rescheduling is not idempotent and no such property is
  claimed.
- `NotificationManager.ShowNotification`: errors from the browser's display
  call are not modelled. The push notifications the daily reminders also
  send are left out.
- The page's `requestPermission` in the manager and the click-event handling
  in React are left out. The settings panel's switch models the
  permission request.
- ServerWakeGate, the server and React mounting, and the VAPID key generator
  are not part of this model. They are networking and wiring with no
  notification logic.

## Findings

| source | as written | input that shows it | evidently intended | confidence | as-written member | corrected member |
|---|---|---|---|---|---|---|
| src/utils/notificationManager.js:287-297 | the evening timer recounts the open tasks in `tasks`, the array captured when the reminders were armed; arming requires that count to be positive, and the page replaces arrays rather than changing them, so the recount is the same positive number | any day with one open task at arming, completed before 18:00: the evening still says "Evening Check-in", "You still have 1 tasks" | count the tasks as they stand when the evening fires, so that "Great Job!" appears once every task of the day is done | not executed | NotificationManager.EveningAsWritten (with NotificationManager.EveningNeverCongratulates) | NotificationManager.EveningSummary (with NotificationManager.EveningSummaryCongratulatesIffAllDone) |

=== FILE: calendar_task.dfy ===
/** The calendar task record and what the document schema does when one is
    written: enumerations, trimming, required fields and defaults. */
module CalendarTask {
  import opened Common

  datatype Category = Study | Food | Chores | Exercise | Other
  datatype Priority = High | Medium | Low

  function CategoryName(c: Category): string {
    match c
    case Study => "study"
    case Food => "food"
    case Chores => "chores"
    case Exercise => "exercise"
    case Other => "other"
  }

  /** The schema's enum validator for `category`: a string is accepted exactly
      when it names a category. */
  function ParseCategory(s: string): (r: Option<Category>)
    ensures r.Some? ==> CategoryName(r.value) == s
  {
    if s == "study" then Some(Study)
    else if s == "food" then Some(Food)
    else if s == "chores" then Some(Chores)
    else if s == "exercise" then Some(Exercise)
    else if s == "other" then Some(Other)
    else None
  }

  lemma CategoryRoundTrip(c: Category)
    ensures ParseCategory(CategoryName(c)) == Some(c)
  {
  }

  function PriorityName(p: Priority): string {
    match p
    case High => "high"
    case Medium => "medium"
    case Low => "low"
  }

  function ParsePriority(s: string): (r: Option<Priority>)
    ensures r.Some? ==> PriorityName(r.value) == s
  {
    if s == "high" then Some(High)
    else if s == "medium" then Some(Medium)
    else if s == "low" then Some(Low)
    else None
  }

  lemma PriorityRoundTrip(p: Priority)
    ensures ParsePriority(PriorityName(p)) == Some(p)
  {
  }

  /** A stored task. `date` is an abstract day number standing for the
      "YYYY-MM-DD" string; `time` and `endTime` are kept as the stored text. */
  datatype Task = Task(
    id: string,
    title: string,
    description: string,
    category: Category,
    date: int,
    time: string,
    endTime: string,
    priority: Priority,
    completed: bool,
    notificationSent: bool,
    userId: string,
    createdAt: int)

  /** The values handed to the schema when a task is created, before casting. */
  datatype Draft = Draft(
    title: string,
    description: string,
    category: string,
    date: int,
    time: string,
    endTime: string,
    priority: string,
    userId: string)

  /** ECMAScript white space and line terminators, the characters `trim` removes. */
  predicate IsSpace(c: char) {
    var u := c as int;
    || 0x09 <= u <= 0x0D || u == 0x20 || u == 0xA0 || u == 0x1680
    || 0x2000 <= u <= 0x200A || u == 0x2028 || u == 0x2029 || u == 0x202F
    || u == 0x205F || u == 0x3000 || u == 0xFEFF
  }

  function TrimStart(s: string): (r: string)
    ensures |r| <= |s| && r == s[|s| - |r|..]
    ensures forall i :: 0 <= i < |s| - |r| ==> IsSpace(s[i])
    ensures |r| == 0 || !IsSpace(r[0])
    decreases |s|
  {
    if |s| > 0 && IsSpace(s[0]) then TrimStart(s[1..]) else s
  }

  function TrimEnd(s: string): (r: string)
    ensures |r| <= |s| && r == s[..|r|]
    ensures forall i :: |r| <= i < |s| ==> IsSpace(s[i])
    ensures |r| == 0 || !IsSpace(r[|r| - 1])
    decreases |s|
  {
    if |s| > 0 && IsSpace(s[|s| - 1]) then TrimEnd(s[..|s| - 1]) else s
  }

  /** `r` is `s[a..]` cut short of a tail, with only white space cut at
      either end. */
  predicate CutFrom(s: string, r: string, a: int) {
    && 0 <= a <= |s| - |r| && r == s[a..a + |r|]
    && (forall i :: 0 <= i < a ==> IsSpace(s[i]))
    && (forall i :: a + |r| <= i < |s| ==> IsSpace(s[i]))
  }

  /** Cutting white space from the front and then from the back of what is
      left cuts white space from both ends of the original. */
  lemma CutBothEnds(s: string, t: string, r: string)
    requires |t| <= |s| && t == s[|s| - |t|..]
    requires forall i :: 0 <= i < |s| - |t| ==> IsSpace(s[i])
    requires |r| <= |t| && r == t[..|r|]
    requires forall i :: |r| <= i < |t| ==> IsSpace(t[i])
    ensures CutFrom(s, r, |s| - |t|)
  {
    var a := |s| - |t|;
    forall i | a + |r| <= i < |s| ensures IsSpace(s[i]) {
      assert s[i] == t[i - a];
    }
  }

  /** `String.prototype.trim`, which the schema applies to title and description. */
  function Trim(s: string): (r: string)
    ensures |r| <= |s|
    ensures |r| == 0 || (!IsSpace(r[0]) && !IsSpace(r[|r| - 1]))
    ensures exists a :: CutFrom(s, r, a)
  {
    var t := TrimStart(s);
    var r := TrimEnd(t);
    CutBothEnds(s, t, r);
    r
  }

  /** A string trims to nothing exactly when it is all white space. */
  lemma TrimEmptyIffBlank(s: string)
    ensures Trim(s) == "" <==> forall i :: 0 <= i < |s| ==> IsSpace(s[i])
  {
    var a := TrimStart(s);
    if Trim(s) == "" {
      assert |a| == 0;
    } else {
      assert !IsSpace(a[0]);
      assert a[0] == s[|s| - |a|];
    }
  }

  /** Trimming leaves a text without surrounding white space unchanged. */
  lemma TrimKeepsTrimmed(s: string)
    requires |s| == 0 || (!IsSpace(s[0]) && !IsSpace(s[|s| - 1]))
    ensures Trim(s) == s
  {
  }

  /** Writing a draft: cast, trim, check required fields and enums, fill in the
      schema defaults. `None` is a validation error. */
  function Construct(d: Draft, id: string, now: int): (r: Option<Task>)
    ensures r.Some? <==>
      && Trim(d.title) != "" && d.time != ""
      && ParseCategory(d.category).Some? && ParsePriority(d.priority).Some?
    ensures r.Some? ==>
      && r.value.id == id && r.value.title == Trim(d.title)
      && r.value.description == Trim(d.description)
      && CategoryName(r.value.category) == d.category
      && PriorityName(r.value.priority) == d.priority
      && r.value.date == d.date && r.value.time == d.time && r.value.endTime == d.endTime
      && !r.value.completed && !r.value.notificationSent
      && r.value.userId == d.userId && r.value.createdAt == now
  {
    var title := Trim(d.title);
    var category := ParseCategory(d.category);
    var priority := ParsePriority(d.priority);
    if title == "" || d.time == "" || category.None? || priority.None? then None
    else Some(Task(id, title, Trim(d.description), category.value, d.date, d.time,
                   d.endTime, priority.value, false, false, d.userId, now))
  }

  /** A task built only from schema defaults around its required fields. */
  lemma SchemaDefaults(title: string, date: int, time: string, id: string, now: int)
    requires Trim(title) != "" && time != ""
    ensures var r := Construct(Draft(title, "", "study", date, time, "", "medium", "default"), id, now);
      && r.Some?
      && r.value.category == Study && r.value.priority == Medium
      && r.value.description == "" && r.value.endTime == ""
      && r.value.userId == "default"
      && !r.value.completed && !r.value.notificationSent
  {
    assert Trim("") == "";
    CategoryRoundTrip(Study);
    PriorityRoundTrip(Medium);
    var d := Draft(title, "", "study", date, time, "", "medium", "default");
    assert Construct(d, id, now).Some?;
  }
}

=== FILE: calendar_view.dfy ===
/** The calendar page's own logic: the month grid, the tasks of a day cell
    and of a month, the month list's order, the save guard of the task form
    and the complete button. Dates are day numbers; which month a day falls
    in, and the weekday of the first of the month, come from the calendar
    and are parameters here. */
module CalendarView {
  import opened Common
  import opened Clock
  import opened Sorting
  import opened TrackerApp
  import TaskRoutes

  /** `getDaysInMonth`: `startingDayOfWeek` empty cells, then the days
      1..`daysInMonth` in order. */
  method GetDaysInMonth(startingDayOfWeek: nat, daysInMonth: nat) returns (days: seq<Option<nat>>)
    ensures |days| == startingDayOfWeek + daysInMonth
    ensures forall i :: 0 <= i < startingDayOfWeek ==> days[i].None?
    ensures forall d :: 1 <= d <= daysInMonth ==> days[startingDayOfWeek + d - 1] == Some(d)
  {
    days := [];
    var i := 0;
    while i < startingDayOfWeek
      invariant 0 <= i <= startingDayOfWeek && |days| == i
      invariant forall j :: 0 <= j < i ==> days[j].None?
    {
      days := days + [None];
      i := i + 1;
    }
    var day := 1;
    while day <= daysInMonth
      invariant 1 <= day <= daysInMonth + 1
      invariant |days| == startingDayOfWeek + day - 1
      invariant forall j :: 0 <= j < startingDayOfWeek ==> days[j].None?
      invariant forall d :: 1 <= d < day ==> days[startingDayOfWeek + d - 1] == Some(d)
    {
      days := days + [Some(day)];
      day := day + 1;
    }
  }

  /** `getTasksForDate`: nothing for an empty cell, otherwise the tasks
      dated that day, in list order. */
  function TasksForDate(tasks: seq<Item>, date: Option<int>): (r: seq<Item>)
    ensures date.None? ==> r == []
    ensures date.Some? ==> forall i :: 0 <= i < |r| ==> r[i].date == date.value && r[i] in tasks
    ensures date.Some? ==> forall i :: 0 <= i < |tasks| && tasks[i].date == date.value ==> tasks[i] in r
  {
    match date
    case None => []
    case Some(d) => Filter(tasks, (t: Item) => t.date == d)
  }

  /** `getTasksForMonth`: the tasks whose day falls in `month`, in list order. */
  function TasksForMonth(tasks: seq<Item>, month: int, monthOf: int -> int): (r: seq<Item>)
    ensures forall i :: 0 <= i < |r| ==> monthOf(r[i].date) == month && r[i] in tasks
    ensures forall i :: 0 <= i < |tasks| && monthOf(tasks[i].date) == month ==> tasks[i] in r
  {
    Filter(tasks, (t: Item) => monthOf(t.date) == month)
  }

  /** The instant the month list sorts by: the task's day at its time, a
      missing time reading as 00:00, minute 0. */
  function SortInstant(t: Item): int {
    StartInstant(t.date, if t.time == "" then 0 else Default(ParseClock(t.time), 0))
  }

  predicate ByInstant(a: Item, b: Item) {
    SortInstant(a) <= SortInstant(b)
  }

  lemma ByInstantIsTotal()
    ensures TotalPreorder(ByInstant)
  {
  }

  /** The month list: the month's tasks, earliest first. */
  function MonthList(tasks: seq<Item>, month: int, monthOf: int -> int): (r: seq<Item>)
    ensures multiset(r) == multiset(TasksForMonth(tasks, month, monthOf))
    ensures SortedBy(r, ByInstant)
    ensures forall i :: 0 <= i < |r| ==> monthOf(r[i].date) == month && r[i] in tasks
    ensures forall z :: Filter(r, SameRank(ByInstant, z))
                     == Filter(TasksForMonth(tasks, month, monthOf), SameRank(ByInstant, z))
  {
    ByInstantIsTotal();
    var month' := TasksForMonth(tasks, month, monthOf);
    var r := SortBy(month', ByInstant);
    assert forall i :: 0 <= i < |r| ==> r[i] in multiset(month');
    forall z ensures Filter(r, SameRank(ByInstant, z)) == Filter(month', SameRank(ByInstant, z)) {
      SortByStable(month', ByInstant, z);
    }
    r
  }

  /** A task without a time is listed at the start of its day: with one at
      midnight or later on the same day, it comes no later. */
  lemma UntimedFirstInDay(a: Item, b: Item)
    requires a.time == "" && a.date == b.date
    ensures ByInstant(a, b)
  {
  }

  /** Every task shown in a day cell is also in its month's list. */
  lemma DayTasksInMonthList(tasks: seq<Item>, d: int, monthOf: int -> int)
    ensures forall t :: t in TasksForDate(tasks, Some(d)) ==> t in MonthList(tasks, monthOf(d), monthOf)
  {
    var day := TasksForDate(tasks, Some(d));
    var month := TasksForMonth(tasks, monthOf(d), monthOf);
    forall t | t in day ensures t in MonthList(tasks, monthOf(d), monthOf) {
      var i :| 0 <= i < |day| && day[i] == t;
      var j :| 0 <= j < |tasks| && tasks[j] == t;
      assert t in month;
      assert t in multiset(month);
    }
  }

  /** A day cell shows at most two tasks and then "+N more" for the rest. */
  function CellPreview(dayTasks: seq<Item>): (r: (seq<Item>, Option<nat>))
    ensures |r.0| <= 2 && |r.0| <= |dayTasks| && r.0 == dayTasks[..|r.0|]
    ensures r.1.Some? <==> |dayTasks| > 2
    ensures |r.0| + Default(r.1, 0) == |dayTasks|
    ensures |r.0| == if |dayTasks| < 2 then |dayTasks| else 2
  {
    if |dayTasks| > 2 then (dayTasks[..2], Some(|dayTasks| - 2)) else (dayTasks, None)
  }

  /** The task form. The date field is empty (`None`) or a day. */
  datatype Form = Form(
    title: string,
    category: string,
    time: string,
    endTime: string,
    description: string,
    date: Option<int>,
    priority: string)

  /** What the form sends: a new task, or an update of the task being edited. */
  datatype SaveRequest = CreateRequest(form: Form) | UpdateRequest(id: Option<string>, form: Form)

  /** `handleSaveTask`: nothing is sent unless title, time and date are filled
      in; otherwise an update when a task is being edited, else a create. */
  function SaveTask(f: Form, editing: Option<Item>): (r: Option<SaveRequest>)
    ensures r.Some? <==> f.title != "" && f.time != "" && f.date.Some?
    ensures r.Some? ==> r.value.form == f
    ensures r.Some? ==> (r.value.UpdateRequest? <==> editing.Some?)
    ensures r.Some? && editing.Some? ==> r.value.id == editing.value.id
  {
    if f.title == "" || f.time == "" || f.date.None? then None
    else
      match editing
      case None => Some(CreateRequest(f))
      case Some(t) => Some(UpdateRequest(t.id, f))
  }

  /** The form as the create route reads it: every field present as typed. */
  function CreateBodyOf(f: Form): TaskRoutes.CreateBody {
    TaskRoutes.CreateBody(Some(f.title), Some(f.description), Some(f.category), f.date, Some(f.time),
                          Some(f.endTime), Some(f.priority), None)
  }

  /** A form the page lets through is never rejected by the create route for
      a missing title, date or time. */
  lemma SavedFormHasRequired(f: Form, editing: Option<Item>)
    requires SaveTask(f, editing).Some?
    ensures TaskRoutes.HasRequired(CreateBodyOf(f))
  {
  }

  /** `handleCompleteTask`: the update asks for `completed` flipped; the
      completion notification goes out only when the task was open and the
      backend's answer says completed. `None` is a failed update. */
  function CompleteTask(t: Item, answer: Option<SavedTask>): (r: (Item, bool))
    ensures r.0.completed == !t.completed
    ensures r.0 == t.(completed := r.0.completed)
    ensures r.1 <==> !t.completed && answer.Some? && Normalise(answer.value).completed
  {
    (t.(completed := !t.completed), !t.completed && answer.Some? && Normalise(answer.value).completed)
  }

  /** When the backend stores what it is asked, completing celebrates exactly
      when the task was open, and pressing the button twice restores the task
      without a second celebration. */
  lemma CompleteTwice(t: Item, first: SavedTask, second: SavedTask)
    requires first.completed == !t.completed && second.completed == t.completed
    ensures CompleteTask(t, Some(first)).1 <==> !t.completed
    ensures var once := CompleteTask(t, Some(first)).0;
      CompleteTask(once, Some(second)).0 == t && (CompleteTask(t, Some(first)).1 ==> !CompleteTask(once, Some(second)).1)
  {
  }
}

=== FILE: clock.dfy ===
/** Times of day as stored in a task's `time` field ("HH:MM"), read the way
    `time.split(':').map(Number)` reads them, and the instant a task starts.
    A time that JavaScript turns into NaN is `None` here: every comparison with
    NaN is false, so such a task never arms or fires anything. */
module Clock {
  import opened Common

  predicate IsDigit(c: char) {
    '0' <= c <= '9'
  }

  predicate AllDigits(s: string) {
    forall i :: 0 <= i < |s| ==> IsDigit(s[i])
  }

  function DigitsValue(s: string): nat
    requires AllDigits(s)
    decreases |s|
  {
    if |s| == 0 then 0
    else 10 * DigitsValue(s[..|s| - 1]) + (s[|s| - 1] as int - '0' as int)
  }

  /** `Number(part)` for the parts a split can produce: the empty string is 0,
      a run of decimal digits is its value, anything else is NaN. */
  function NumberOf(part: string): Option<nat> {
    if AllDigits(part) then Some(DigitsValue(part)) else None
  }

  /** Position of the first ':' in `s`, or |s| when there is none. */
  function ColonAt(s: string): (k: nat)
    ensures k <= |s|
    ensures forall i :: 0 <= i < k ==> s[i] != ':'
    ensures k < |s| ==> s[k] == ':'
    decreases |s|
  {
    if |s| == 0 then 0
    else if s[0] == ':' then 0
    else 1 + ColonAt(s[1..])
  }

  /** Minute of day `hours * 60 + minutes` of a stored time: the first two
      ':'-separated parts are read as numbers; a missing second part is NaN. */
  function ParseClock(s: string): (r: Option<nat>)
    ensures ColonAt(s) == |s| ==> r.None?
    ensures r.Some? ==> AllDigits(s[..ColonAt(s)])
  {
    var k := ColonAt(s);
    if k == |s| then None
    else
      var rest := s[k + 1..];
      var hours := NumberOf(s[..k]);
      var minutes := NumberOf(rest[..ColonAt(rest)]);
      if hours.Some? && minutes.Some? then Some(hours.value * 60 + minutes.value)
      else None
  }

  /** The documented shape of `time` and `endTime`: two-digit hours below 24,
      a colon, two-digit minutes below 60. */
  predicate ValidClock(s: string) {
    && |s| == 5
    && IsDigit(s[0]) && IsDigit(s[1]) && s[2] == ':' && IsDigit(s[3]) && IsDigit(s[4])
    && DigitsValue(s[..2]) < 24
    && DigitsValue(s[3..]) < 60
  }

  function TwoDigits(n: nat): (r: string)
    requires n < 100
    ensures |r| == 2 && AllDigits(r) && DigitsValue(r) == n
  {
    var r := [Digit(n / 10), Digit(n % 10)];
    assert r[..1] == [Digit(n / 10)];
    assert r[..1][..0] == [];
    assert DigitsValue(r[..1]) == n / 10;
    r
  }

  /** Renders a minute of day as "HH:MM". */
  function FormatClock(m: nat): (s: string)
    requires m < 24 * 60
    ensures ValidClock(s)
  {
    var s := TwoDigits(m / 60) + ":" + TwoDigits(m % 60);
    assert s[..2] == TwoDigits(m / 60);
    assert s[3..] == TwoDigits(m % 60);
    s
  }

  /** Reading a rendered time gives back the minute of day. */
  lemma FormatThenParse(m: nat)
    requires m < 24 * 60
    ensures ParseClock(FormatClock(m)) == Some(m)
  {
    var s := FormatClock(m);
    assert ColonAt(s[3..]) == 2;
    assert ColonAt(s) == 2 by {
      assert s[0] != ':' && s[1] != ':' && s[2] == ':';
      assert ColonAt(s[2..]) == 0;
      assert s[1..][1..] == s[2..];
    }
    assert s[3..][..2] == s[3..];
    assert s[..2] == TwoDigits(m / 60) && s[3..] == TwoDigits(m % 60);
    assert NumberOf(s[..2]) == Some(m / 60);
    assert NumberOf(s[3..]) == Some(m % 60);
    assert ParseClock(s) == Some(m / 60 * 60 + m % 60);
  }

  /** A well-formed time reads as its hours times 60 plus its minutes, a
      minute of the day. */
  lemma ParseValid(s: string)
    requires ValidClock(s)
    ensures ParseClock(s) == Some(DigitsValue(s[..2]) * 60 + DigitsValue(s[3..]))
    ensures ParseClock(s).value < 24 * 60
  {
    assert ColonAt(s) == 2 by {
      assert s[0] != ':' && s[1] != ':';
      assert ColonAt(s[2..]) == 0;
      assert s[1..][1..] == s[2..];
    }
    var rest := s[3..];
    assert ColonAt(rest) == 2;
    assert rest[..2] == rest;
  }

  /** Every well-formed time is the rendering of the minute it denotes, so
      ParseClock is injective on well-formed times. */
  lemma ParseThenFormat(s: string)
    requires ValidClock(s)
    ensures ParseClock(s).Some? && ParseClock(s).value < 24 * 60
    ensures FormatClock(ParseClock(s).value) == s
  {
    ParseValid(s);
    var h := DigitsValue(s[..2]);
    var mi := DigitsValue(s[3..]);
    var f := FormatClock(h * 60 + mi);
    assert (h * 60 + mi) / 60 == h && (h * 60 + mi) % 60 == mi;
    TwoDigitsDetermined(s[..2]);
    TwoDigitsDetermined(s[3..]);
    assert f == s[..2] + ":" + s[3..];
    assert s == s[..2] + ":" + s[3..];
  }

  lemma TwoDigitsDetermined(t: string)
    requires |t| == 2 && AllDigits(t)
    ensures DigitsValue(t) < 100
    ensures TwoDigits(DigitsValue(t)) == t
  {
    assert t[..1] == [t[0]];
    assert DigitsValue([t[0]]) == t[0] as int - '0' as int by {
      assert [t[0]][..0] == [];
    }
  }

  /** Local instant of minute `m` of day `day`, as `setHours` computes it on
      the task's date: hours and minutes past 23:59 roll into later days. */
  function StartInstant(day: int, m: int): int {
    day * DayMs + m * MinuteMs
  }
}

=== FILE: common.dfy ===
/** Shared vocabulary: optional values, JavaScript string truthiness, the time
    constants every scheduler uses, order-preserving filtering, and the
    notification buttons and completion messages the page and the backend
    share. */
module Common {

  /** A field of a JSON body or a stored record that may be absent. */
  datatype Option<+T> = None | Some(value: T)

  /** The HTTP outcome of a route: a value (200/201), 400, 404 or 500. */
  datatype Reply<+T> = Ok(value: T) | BadRequest | NotFound | ServerError

  /** One minute, one hour and one day in milliseconds. */
  const MinuteMs: int := 60 * 1000
  const HourMs: int := 60 * MinuteMs
  const DayMs: int := 24 * HourMs

  /** A string field is truthy in JavaScript when it is present and non-empty. */
  predicate Given(o: Option<string>) {
    o.Some? && o.value != ""
  }

  /** `o || d` for an optional string field. */
  function OrElse(o: Option<string>, d: string): string {
    if Given(o) then o.value else d
  }

  /** `x = d` in a destructuring pattern: the default replaces only an absent value. */
  function Default<T>(o: Option<T>, d: T): T {
    match o
    case Some(v) => v
    case None => d
  }

  /** `Array.prototype.filter`: keeps, in order, the elements satisfying `p`. */
  function Filter<T>(xs: seq<T>, p: T -> bool): (r: seq<T>)
    ensures |r| <= |xs|
    ensures forall i :: 0 <= i < |r| ==> r[i] in xs && p(r[i])
    ensures forall i :: 0 <= i < |xs| && p(xs[i]) ==> xs[i] in r
    decreases |xs|
  {
    if |xs| == 0 then []
    else if p(xs[0]) then [xs[0]] + Filter(xs[1..], p)
    else Filter(xs[1..], p)
  }

  /** The filter keeps copies: what it returns is part of the input, and an
      element it keeps comes with every copy the input holds. */
  lemma {:induction false} FilterCounts<T>(xs: seq<T>, p: T -> bool)
    ensures multiset(Filter(xs, p)) <= multiset(xs)
    ensures forall i :: 0 <= i < |xs| && p(xs[i]) ==> multiset(Filter(xs, p))[xs[i]] == multiset(xs)[xs[i]]
    decreases |xs|
  {
    if |xs| > 0 {
      var tail := xs[1..];
      var rest := Filter(tail, p);
      FilterCounts(tail, p);
      assert multiset(xs) == multiset{xs[0]} + multiset(tail) by {
        assert xs == [xs[0]] + tail;
      }
      if p(xs[0]) {
        assert multiset(Filter(xs, p)) == multiset{xs[0]} + multiset(rest) by {
          assert Filter(xs, p) == [xs[0]] + rest;
        }
      }
      forall i | 0 <= i < |xs| && p(xs[i])
        ensures multiset(Filter(xs, p))[xs[i]] == multiset(xs)[xs[i]]
      {
        if xs[i] in tail {
          var j :| 0 <= j < |tail| && tail[j] == xs[i];
          assert multiset(rest)[tail[j]] == multiset(tail)[tail[j]];
        } else {
          assert multiset(tail)[xs[i]] == 0;
        }
      }
    }
  }

  /** Filtering a concatenation filters each part and keeps their order. */
  lemma {:induction false} FilterAppend<T>(xs: seq<T>, ys: seq<T>, p: T -> bool)
    ensures Filter(xs + ys, p) == Filter(xs, p) + Filter(ys, p)
    decreases |xs|
  {
    if |xs| == 0 {
      assert xs + ys == ys;
    } else {
      assert (xs + ys)[1..] == xs[1..] + ys;
      FilterAppend(xs[1..], ys, p);
    }
  }

  /** A filter that rejects nothing returns its input unchanged. */
  lemma {:induction false} FilterAll<T>(xs: seq<T>, p: T -> bool)
    requires forall i :: 0 <= i < |xs| ==> p(xs[i])
    ensures Filter(xs, p) == xs
    decreases |xs|
  {
    if |xs| > 0 {
      FilterAll(xs[1..], p);
    }
  }

  /** Filters that agree on every element give the same result. */
  lemma {:induction false} FilterCongruent<T>(xs: seq<T>, p: T -> bool, q: T -> bool)
    requires forall i :: 0 <= i < |xs| ==> p(xs[i]) == q(xs[i])
    ensures Filter(xs, p) == Filter(xs, q)
    decreases |xs|
  {
    if |xs| > 0 {
      FilterCongruent(xs[1..], p, q);
    }
  }

  /** Filtering by a stricter condition after a looser one is filtering by
      the stricter one alone. */
  lemma {:induction false} FilterNarrows<T>(xs: seq<T>, p: T -> bool, q: T -> bool)
    requires forall i :: 0 <= i < |xs| && q(xs[i]) ==> p(xs[i])
    ensures Filter(Filter(xs, p), q) == Filter(xs, q)
    decreases |xs|
  {
    if |xs| > 0 {
      FilterNarrows(xs[1..], p, q);
    }
  }

  /** The number of elements satisfying `p`. */
  function Count<T>(xs: seq<T>, p: T -> bool): nat {
    |Filter(xs, p)|
  }

  /** Decimal rendering of an integer, as a template literal prints it. */
  function IntToString(n: int): string
    decreases if n < 0 then 1 - n else n
  {
    if n < 0 then "-" + IntToString(-n)
    else if n < 10 then [Digit(n)]
    else IntToString(n / 10) + [Digit(n % 10)]
  }

  function Digit(d: int): (c: char)
    requires 0 <= d < 10
    ensures '0' <= c <= '9' && c as int - '0' as int == d
  {
    ('0' as int + d) as char
  }

  /** A button on a shown notification. */
  datatype Action = Action(action: string, title: string)

  /** The celebratory messages, one of which is chosen uniformly. */
  const CompletionMessages: seq<string> := [
    "Amazing work! You're absolutely crushing it!",
    "Fantastic! You're doing incredible!",
    "Outstanding! Keep up the amazing work!",
    "Brilliant! You're unstoppable!",
    "Incredible! You're on fire!",
    "Spectacular! You're a superstar!",
    "Wonderful! You're doing great!",
    "Magnificent! You're awesome!",
    "You're such a star! Keep shining!",
    "Absolutely adorable work!",
    "You're doing beautifully!",
    "Sweet success! You're amazing!"]

  /** `Math.floor(random * length)` for a draw `random` in [0, 1). */
  function MessageIndex(random: real, length: nat): (i: int)
    requires 0.0 <= random < 1.0 && length > 0
    ensures 0 <= i < length
  {
    var x := random * length as real;
    assert 0.0 <= x < length as real;
    x.Floor
  }
}

=== FILE: notification_manager.dfy ===
/** The page-side notification manager: the display guard, arming of a task's
    reminder and start notifications, the completion notification, the daily
    morning and evening reminders, and rescheduling when the task list
    changes. Timers are not run: each decision is returned as the delay a
    timer would be armed with. `now` is the local clock in milliseconds on the
    same scale as `Clock.StartInstant`. */
module NotificationManager {
  import opened Common
  import opened Clock
  import opened NotificationSettings
  import opened TrackerApp

  /** Options passed to `showNotification`; an absent key keeps the default. */
  datatype Options = Options(
    body: Option<string>,
    icon: Option<string>,
    badge: Option<string>,
    tag: Option<string>,
    requireInteraction: Option<bool>,
    vibrate: Option<seq<int>>,
    actions: Option<seq<Action>>)

  /** A notification put on screen. */
  datatype Shown = Shown(
    title: string,
    body: Option<string>,
    icon: string,
    badge: string,
    tag: Option<string>,
    requireInteraction: bool,
    vibrate: seq<int>,
    actions: Option<seq<Action>>)

  const FavIcon: string := "/favicon.ico"
  const AppIcon: string := "/manifest-icon-192.png"

  /** `showNotification`: nothing unless notifications are enabled and the
      browser permission is granted; otherwise the given options spread over
      the defaults. */
  function ShowNotification(s: Settings, permission: Permission, title: string, o: Options): (r: Option<Shown>)
    ensures r.Some? <==> s.enabled && permission == Granted
    ensures r.Some? ==> && r.value.title == title && r.value.body == o.body && r.value.tag == o.tag
                        && r.value.actions == o.actions
                        && (o.icon.Some? ==> r.value.icon == o.icon.value)
                        && (o.icon.None? ==> r.value.icon == FavIcon)
                        && (o.badge.Some? ==> r.value.badge == o.badge.value)
                        && (o.badge.None? ==> r.value.badge == FavIcon)
                        && (o.requireInteraction.Some? ==> r.value.requireInteraction == o.requireInteraction.value)
                        && (o.requireInteraction.None? ==> !r.value.requireInteraction)
                        && (o.vibrate.Some? ==> r.value.vibrate == o.vibrate.value)
                        && (o.vibrate.None? ==> r.value.vibrate == [100, 50, 100])
  {
    if !s.enabled || permission != Granted then None
    else Some(Shown(title, o.body, Default(o.icon, FavIcon), Default(o.badge, FavIcon), o.tag,
                    Default(o.requireInteraction, false), Default(o.vibrate, [100, 50, 100]), o.actions))
  }

  /** `${task.id}` in a tag: an absent id prints as "undefined". */
  function IdText(id: Option<string>): string {
    Default(id, "undefined")
  }

  /** The reminder decision for one task: when it fires, whether the backend
      push is also armed, whether the service worker is told. */
  datatype ReminderArm = ReminderArm(
    delay: int, instant: int, viaPush: bool, viaWorker: bool, tag: string, body: string)

  datatype StartArm = StartArm(delay: int, instant: int, viaWorker: bool, tag: string, body: string)

  datatype TaskPlan = TaskPlan(reminder: Option<ReminderArm>, start: Option<StartArm>)

  const NothingArmed: TaskPlan := TaskPlan(None, None)

  /** The guard of `scheduleTaskReminder`. */
  predicate MayArm(s: Settings, t: Item) {
    s.enabled && s.taskReminders && t.time != "" && !t.completed
  }

  /** A delay a timer is armed with: positive and at most one day. */
  predicate WithinDay(delay: int) {
    0 < delay <= DayMs
  }

  /** `scheduleTaskReminder`. The reminder instant is the start instant less
      the lead; each arm is taken on its own when its delay is within a day.
      A time that does not read as a number arms nothing. */
  function ScheduleTaskReminder(s: Settings, t: Item, now: int, pushSubscribed: bool, workerActive: bool)
    : (p: TaskPlan)
    ensures !MayArm(s, t) || ParseClock(t.time).None? ==> p == NothingArmed
    ensures p.reminder.Some? <==>
      MayArm(s, t) && ParseClock(t.time).Some?
      && WithinDay(StartInstant(t.date, ParseClock(t.time).value) - s.reminderMinutes * MinuteMs - now)
    ensures p.start.Some? <==>
      MayArm(s, t) && ParseClock(t.time).Some?
      && WithinDay(StartInstant(t.date, ParseClock(t.time).value) - now)
    ensures p.reminder.Some? ==>
      && p.reminder.value.instant == StartInstant(t.date, ParseClock(t.time).value) - s.reminderMinutes * MinuteMs
      && p.reminder.value.delay == p.reminder.value.instant - now
      && p.reminder.value.viaPush == pushSubscribed && p.reminder.value.viaWorker == workerActive
      && p.reminder.value.tag == "reminder-" + IdText(t.id)
    ensures p.start.Some? ==>
      && p.start.value.instant == StartInstant(t.date, ParseClock(t.time).value)
      && p.start.value.delay == p.start.value.instant - now
      && p.start.value.viaWorker == workerActive
      && p.start.value.tag == "task-" + IdText(t.id)
  {
    if !MayArm(s, t) then NothingArmed
    else
      match ParseClock(t.time)
      case None => NothingArmed
      case Some(m) =>
        var taskAt := StartInstant(t.date, m);
        var reminderAt := taskAt - s.reminderMinutes * MinuteMs;
        var untilReminder := reminderAt - now;
        var untilTask := taskAt - now;
        TaskPlan(
          if WithinDay(untilReminder) then
            Some(ReminderArm(untilReminder, reminderAt, pushSubscribed, workerActive,
                             "reminder-" + IdText(t.id),
                             t.title + " starts in " + IntToString(s.reminderMinutes) + " minutes!"))
          else None,
          if WithinDay(untilTask) then
            Some(StartArm(untilTask, taskAt, workerActive, "task-" + IdText(t.id), "Time for: " + t.title))
          else None)
  }

  /** With a positive lead the reminder fires strictly before the start, by
      exactly the lead. */
  lemma ReminderPrecedesStart(s: Settings, t: Item, now: int, push: bool, worker: bool)
    requires s.reminderMinutes > 0
    ensures var p := ScheduleTaskReminder(s, t, now, push, worker);
      p.reminder.Some? && p.start.Some? ==>
        && p.reminder.value.delay < p.start.value.delay
        && p.start.value.instant - p.reminder.value.instant == s.reminderMinutes * MinuteMs
  {
  }

  /** The start arm does not depend on the lead at all: a reminder that is
      already past, or too far ahead, never suppresses the start. */
  lemma StartIgnoresLead(s: Settings, t: Item, now: int, push: bool, worker: bool, lead: int)
    ensures ScheduleTaskReminder(s, t, now, push, worker).start
         == ScheduleTaskReminder(s.(reminderMinutes := lead), t, now, push, worker).start
  {
  }

  /** A task within the next day whose reminder is already past still gets its
      start notification. */
  lemma PastReminderKeepsStart(s: Settings, t: Item, now: int, push: bool, worker: bool)
    requires MayArm(s, t) && ParseClock(t.time).Some?
    requires var at := StartInstant(t.date, ParseClock(t.time).value);
      WithinDay(at - now) && at - s.reminderMinutes * MinuteMs <= now
    ensures var p := ScheduleTaskReminder(s, t, now, push, worker);
      p.reminder.None? && p.start.Some?
  {
  }

  /** `showTaskCompletionNotification`: asks the backend for a push when an id
      is known and a push subscription exists, shows a local notification
      (itself subject to the display guard) and raises the celebration event
      with the chosen message. Nothing at all when completion notifications
      are off. */
  datatype Completion = Completion(push: bool, local: Option<Shown>, celebration: string)

  function ShowTaskCompletion(s: Settings, permission: Permission, title: string, id: Option<string>,
                              pushSubscribed: bool, random: real): (r: Option<Completion>)
    requires 0.0 <= random < 1.0
    ensures r.None? <==> !s.enabled || !s.completionNotifications
    ensures r.Some? ==> (r.value.push <==> Given(id) && pushSubscribed)
    ensures r.Some? ==> r.value.celebration in CompletionMessages
    ensures r.Some? ==> (r.value.local.Some? <==> permission == Granted)
    ensures r.Some? && r.value.local.Some? ==>
      && r.value.local.value.tag == Some("completion")
      && r.value.local.value.body == Some(title + " - " + r.value.celebration)
  {
    if !s.enabled || !s.completionNotifications then None
    else
      var message := CompletionMessages[MessageIndex(random, |CompletionMessages|)];
      var local := ShowNotification(s, permission, "Task Completed!", Options(
        Some(title + " - " + message), Some(AppIcon), None, Some("completion"), Some(false),
        Some([200, 100, 200, 100, 200]), Some([Action("celebrate", "Celebrate!"), Action("next", "Next Task")])));
      Some(Completion(Given(id) && pushSubscribed, local, message))
  }

  /** The open tasks dated `today`. */
  function OpenToday(tasks: seq<Item>, today: int): (r: seq<Item>)
    ensures forall i :: 0 <= i < |r| ==> r[i].date == today && !r[i].completed
    ensures forall i :: 0 <= i < |tasks| && tasks[i].date == today && !tasks[i].completed ==> tasks[i] in r
  {
    Filter(tasks, (t: Item) => t.date == today && !t.completed)
  }

  datatype Daily = Daily(delay: int, tag: string, title: string, body: string)

  datatype DailyPlan = DailyPlan(morning: Option<Daily>, evening: Option<int>)

  /** The local instant of a clock hour on the day of `now`. */
  function TodayAt(now: int, hour: int): int {
    StartInstant(now / DayMs, hour * 60)
  }

  /** `scheduleDailyReminders`: both reminders need notifications and daily
      reminders on and an open task dated today; each is armed only when its
      hour (9:00, 18:00) is still ahead. `today` is the date the task dates
      are compared with. The evening text is decided when it fires
      (`EveningSummary`). */
  function ScheduleDailyReminders(s: Settings, tasks: seq<Item>, today: int, now: int): (p: DailyPlan)
    ensures !s.enabled || !s.dailyReminders || |OpenToday(tasks, today)| == 0 ==> p == DailyPlan(None, None)
    ensures p.morning.Some? <==>
      s.enabled && s.dailyReminders && |OpenToday(tasks, today)| > 0 && TodayAt(now, 9) > now
    ensures p.evening.Some? <==>
      s.enabled && s.dailyReminders && |OpenToday(tasks, today)| > 0 && TodayAt(now, 18) > now
    ensures p.morning.Some? ==> && p.morning.value.delay == TodayAt(now, 9) - now > 0
                                && p.morning.value.tag == "daily-morning"
                                && p.morning.value.title == "Good Morning!"
    ensures p.evening.Some? ==> p.evening.value == TodayAt(now, 18) - now > 0
  {
    var open := OpenToday(tasks, today);
    if !s.enabled || !s.dailyReminders || |open| == 0 then DailyPlan(None, None)
    else
      var morning := TodayAt(now, 9);
      var evening := TodayAt(now, 18);
      DailyPlan(
        if morning > now then
          Some(Daily(morning - now, "daily-morning", "Good Morning!",
                     "You have " + IntToString(|open|) + " tasks scheduled for today. Let's make it a productive day!"))
        else None,
        if evening > now then Some(evening - now) else None)
  }

  /** The evening text for a number of open tasks. */
  function EveningText(remaining: nat): (d: Daily)
    ensures d.tag == "daily-evening"
    ensures d.title == "Evening Check-in" <==> remaining > 0
    ensures d.title == "Great Job!" <==> remaining == 0
  {
    if remaining > 0 then
      Daily(0, "daily-evening", "Evening Check-in",
            "You still have " + IntToString(remaining) + " tasks to complete today. You've got this!")
    else
      Daily(0, "daily-evening", "Great Job!", "All tasks completed for today! Time to relax and celebrate!")
  }

  /** The evening summary as written: it recounts the task list captured
      when the timer was armed, which never changes afterwards. */
  function EveningAsWritten(armedWith: seq<Item>, today: int): (d: Daily)
    ensures d.title == "Evening Check-in" <==> |OpenToday(armedWith, today)| > 0
  {
    EveningText(|OpenToday(armedWith, today)|)
  }

  /** Whenever the evening timer is armed, the as-written summary says
      "Evening Check-in": the "Great Job!" text can never be shown, however
      many tasks are completed before 18:00. */
  lemma EveningNeverCongratulates(s: Settings, tasks: seq<Item>, today: int, now: int)
    requires ScheduleDailyReminders(s, tasks, today, now).evening.Some?
    ensures EveningAsWritten(tasks, today).title == "Evening Check-in"
    ensures EveningAsWritten(tasks, today).title != "Great Job!"
  {
  }

  /** The evening summary counted over the task list as it stands when the
      timer fires. */
  function EveningSummary(atFire: seq<Item>, today: int): (d: Daily)
    ensures d.title == "Great Job!" <==> |OpenToday(atFire, today)| == 0
  {
    EveningText(|OpenToday(atFire, today)|)
  }

  /** Counted at firing time, the evening congratulates exactly when every
      task dated today is completed by then. */
  lemma {:induction false} EveningSummaryCongratulatesIffAllDone(atFire: seq<Item>, today: int)
    ensures EveningSummary(atFire, today).title == "Great Job!" <==>
      forall i :: 0 <= i < |atFire| && atFire[i].date == today ==> atFire[i].completed
  {
    var open := OpenToday(atFire, today);
    if |open| > 0 {
      assert open[0] in atFire;
    }
  }

  /** `rescheduleNotifications`: hands the whole list to the service worker
      (when one is active), arms the daily reminders and arms each task that
      is not completed. Earlier timers are not cleared, so calling it twice
      arms everything twice. */
  datatype Reschedule = Reschedule(toWorker: Option<seq<Item>>, daily: DailyPlan, perTask: seq<TaskPlan>)

  function NotCompleted(tasks: seq<Item>): seq<Item> {
    Filter(tasks, (t: Item) => !t.completed)
  }

  function PlanEach(s: Settings, tasks: seq<Item>, now: int, push: bool, worker: bool): (r: seq<TaskPlan>)
    ensures |r| == |tasks|
    ensures forall i :: 0 <= i < |tasks| ==> r[i] == ScheduleTaskReminder(s, tasks[i], now, push, worker)
    decreases |tasks|
  {
    if |tasks| == 0 then [] else [ScheduleTaskReminder(s, tasks[0], now, push, worker)] + PlanEach(s, tasks[1..], now, push, worker)
  }

  function RescheduleNotifications(s: Settings, tasks: seq<Item>, today: int, now: int, push: bool, worker: bool)
    : (r: Reschedule)
    ensures worker ==> r.toWorker == Some(tasks)
    ensures !worker ==> r.toWorker.None?
    ensures r.daily == ScheduleDailyReminders(s, tasks, today, now)
    ensures |r.perTask| == |NotCompleted(tasks)|
    ensures forall j :: 0 <= j < |r.perTask| ==>
      !NotCompleted(tasks)[j].completed
      && r.perTask[j] == ScheduleTaskReminder(s, NotCompleted(tasks)[j], now, push, worker)
  {
    Reschedule(if worker then Some(tasks) else None,
               ScheduleDailyReminders(s, tasks, today, now),
               PlanEach(s, NotCompleted(tasks), now, push, worker))
  }

  /** Skipping completed tasks loses nothing: a completed task would have
      armed nothing anyway. */
  lemma CompletedArmsNothing(s: Settings, t: Item, now: int, push: bool, worker: bool)
    requires t.completed
    ensures ScheduleTaskReminder(s, t, now, push, worker) == NothingArmed
  {
  }
}

=== FILE: push_client.dfy ===
/** The page's push client: the VAPID key conversion, the guards around
    subscribing, unsubscribing and asking whether a subscription exists, and
    the relay of notification clicks from the service worker to the page.
    Browser calls are inputs: the permission answer, the subscription the
    push manager holds or creates, and whether each request went through. */
module PushClient {
  import opened Common
  import NotificationSettings
  import PushRoutes
  import ServiceWorker

  /** `(4 - n % 4) % 4`: the '=' characters that bring a length up to a
      multiple of four. */
  function PadLength(n: nat): (p: nat)
    ensures p < 4 && (n + p) % 4 == 0
    ensures n % 4 == 0 ==> p == 0
  {
    (4 - n % 4) % 4
  }

  /** Section 5 of RFC 4648 (base64url) to section 4 (base64): '-' becomes
      '+', '_' becomes '/', everything else is kept. */
  function StandardChar(c: char): char {
    if c == '-' then '+' else if c == '_' then '/' else c
  }

  function UrlChar(c: char): char {
    if c == '+' then '-' else if c == '/' then '_' else c
  }

  function MapChars(s: string, f: char -> char): (r: string)
    ensures |r| == |s| && forall i :: 0 <= i < |s| ==> r[i] == f(s[i])
  {
    seq(|s|, i requires 0 <= i < |s| => f(s[i]))
  }

  /** The key text after padding and the two replacements, ready for `atob`. */
  function ToStandardAlphabet(key: string): (r: string)
    ensures |r| == |key| + PadLength(|key|) && |r| % 4 == 0
    ensures forall i :: 0 <= i < |key| ==> r[i] == StandardChar(key[i])
    ensures forall i :: |key| <= i < |r| ==> r[i] == '='
    ensures forall i :: 0 <= i < |r| ==> r[i] != '-' && r[i] != '_'
  {
    MapChars(key + seq(PadLength(|key|), _ => '='), StandardChar)
  }

  /** Text in the base64url alphabet: nothing that the conversion produces
      itself ('+', '/', '='). */
  predicate UrlSafe(key: string) {
    forall i :: 0 <= i < |key| ==> key[i] != '+' && key[i] != '/' && key[i] != '='
  }

  /** Back from section 4 to section 5: the padding dropped and the two
      characters swapped back. */
  function ToUrlAlphabet(text: string): string {
    MapChars(StripPadding(text), UrlChar)
  }

  function StripPadding(text: string): (r: string)
    ensures |r| <= |text| && r == text[..|r|]
    ensures |r| > 0 ==> r[|r| - 1] != '='
    ensures forall i :: |r| <= i < |text| ==> text[i] == '='
    decreases |text|
  {
    if |text| > 0 && text[|text| - 1] == '=' then StripPadding(text[..|text| - 1]) else text
  }

  /** The conversion loses nothing: a base64url key comes back unchanged. */
  lemma StandardThenUrl(key: string)
    requires UrlSafe(key)
    ensures ToUrlAlphabet(ToStandardAlphabet(key)) == key
  {
    var r := ToStandardAlphabet(key);
    var stripped := StripPadding(r);
    if |key| > 0 {
      assert r[|key| - 1] != '=';
    }
    assert |stripped| == |key|;
    forall i | 0 <= i < |key| ensures UrlChar(stripped[i]) == key[i] {
      assert stripped[i] == r[i];
    }
  }

  /** The loop filling the `Uint8Array`: one byte per character, the byte
      being the character code reduced modulo 256 as typed arrays store it.
      `raw` is what `atob` returns; `atob` itself is not modelled. */
  method CharCodes(raw: string) returns (bytes: seq<int>)
    ensures |bytes| == |raw|
    ensures forall i :: 0 <= i < |raw| ==> bytes[i] == (raw[i] as int) % 256
    ensures forall i :: 0 <= i < |raw| ==> 0 <= bytes[i] < 256
  {
    bytes := [];
    var i := 0;
    while i < |raw|
      invariant 0 <= i <= |raw| && |bytes| == i
      invariant forall j :: 0 <= j < i ==> bytes[j] == (raw[j] as int) % 256
    {
      bytes := bytes + [(raw[i] as int) % 256];
      i := i + 1;
    }
  }

  /** What the client holds: whether the browser has service workers and a
      push manager, whether the worker registered, the key fetched from the
      backend, and the endpoint of the subscription it holds. */
  datatype Client = Client(
    supported: bool,
    registered: bool,
    vapidKey: Option<string>,
    held: Option<string>)

  /** `requestPermission`: unsupported or denied is false, granted is true,
      otherwise the user's answer decides. */
  function RequestPermission(supported: bool, permission: NotificationSettings.Permission,
                             answer: NotificationSettings.Permission): (ok: bool)
    ensures ok ==> supported && (permission == NotificationSettings.Granted || answer == NotificationSettings.Granted)
    ensures supported && permission == NotificationSettings.Granted ==> ok
    ensures permission == NotificationSettings.Denied ==> !ok
  {
    if !supported then false
    else if permission == NotificationSettings.Granted then true
    else if permission == NotificationSettings.Denied then false
    else answer == NotificationSettings.Granted
  }

  /** The outcome of a client call: the new client state, the boolean it
      resolves to, and the endpoint it posted to the backend, if any. */
  datatype Step = Step(client: Client, result: bool, posted: Option<string>)

  predicate Ready(c: Client) {
    c.supported && c.registered && Given(c.vapidKey)
  }

  /** `subscribe`. `existing` is the push manager's current subscription;
      `created` is the one it creates (`None` when creating throws, the key
      conversion included); `backendOk` is whether the backend answered OK. */
  function Subscribe(c: Client, permission: NotificationSettings.Permission,
                     answer: NotificationSettings.Permission, existing: Option<string>,
                     created: Option<string>, backendOk: bool): (s: Step)
    ensures !Ready(c) ==> s == Step(c, false, None)
    ensures s.result ==> Ready(c) && RequestPermission(c.supported, permission, answer)
    ensures Ready(c) && RequestPermission(c.supported, permission, answer) && existing.Some? ==>
      s == Step(c.(held := existing), true, None)
    ensures s.posted.Some? ==> existing.None? && s.posted == created && s.client.held == created
                               && s.result == backendOk
    ensures s.client.supported == c.supported && s.client.registered == c.registered
    ensures s.client.vapidKey == c.vapidKey
  {
    if !Ready(c) then Step(c, false, None)
    else if !RequestPermission(c.supported, permission, answer) then Step(c, false, None)
    else if existing.Some? then Step(c.(held := existing), true, None)
    else
      match created
      case None => Step(c, false, None)
      case Some(e) => Step(c.(held := Some(e)), backendOk, Some(e))
  }

  /** `unsubscribe`. `browserOk` is whether the browser's unsubscribe call
      settled without rejecting (it counts as done even when it resolves to
      false); `fetchOk` whether the request to the backend went out without a
      network error, whatever status came back. */
  function Unsubscribe(c: Client, browserOk: bool, fetchOk: bool): (s: Step)
    ensures c.held.None? ==> s == Step(c, true, None)
    ensures c.held.Some? ==> (s.result <==> browserOk && fetchOk)
    ensures c.held.Some? && s.result ==> s.client == c.(held := None) && s.posted == c.held
    ensures !s.result ==> s.client == c && s.posted.None?
  {
    match c.held
    case None => Step(c, true, None)
    case Some(e) =>
      if browserOk && fetchOk then Step(c.(held := None), true, Some(e)) else Step(c, false, None)
  }

  /** `isSubscribed`. `current` is the push manager's subscription, `None`
      as well when asking throws (`failed`). */
  function IsSubscribed(c: Client, current: Option<string>, failed: bool): (r: (Client, bool))
    ensures !c.supported || !c.registered ==> r == (c, false)
    ensures r.1 ==> c.supported && c.registered && !failed && current.Some?
    ensures c.supported && c.registered && !failed ==> r == (c.(held := current), current.Some?)
    ensures failed ==> r.0 == c
  {
    if !c.supported || !c.registered then (c, false)
    else if failed then (c, false)
    else (c.(held := current), current.Some?)
  }

  /** Subscribing and then unsubscribing, with every request succeeding,
      leaves nothing held and posts the same endpoint both times. */
  lemma SubscribeThenUnsubscribe(c: Client, answer: NotificationSettings.Permission, e: string)
    requires Ready(c)
    ensures var s := Subscribe(c, NotificationSettings.Granted, answer, None, Some(e), true);
      var u := Unsubscribe(s.client, true, true);
      && s.result && u.result && s.posted == Some(e) && u.posted == Some(e) && u.client.held.None?
  {
  }

  /** The settings panel's push switch driven by this client: when off it
      subscribes and shows the result, when on it unsubscribes and shows the
      negation of the result. The switch's new position and the client
      call's outcome. */
  function PushToggle(pushEnabled: bool, c: Client, permission: NotificationSettings.Permission,
                      answer: NotificationSettings.Permission, existing: Option<string>,
                      created: Option<string>, backendOk: bool, browserOk: bool, fetchOk: bool)
    : (r: (bool, Step))
    ensures !pushEnabled ==> r.1 == Subscribe(c, permission, answer, existing, created, backendOk)
    ensures pushEnabled ==> r.1 == Unsubscribe(c, browserOk, fetchOk)
    ensures r.0 != pushEnabled <==> r.1.result
    ensures r.0 ==> r.1.client.held.Some?
    ensures pushEnabled && !r.0 ==> r.1.client.held.None?
  {
    var s := if !pushEnabled then Subscribe(c, permission, answer, existing, created, backendOk)
             else Unsubscribe(c, browserOk, fetchOk);
    (if !pushEnabled then s.result else !s.result, s)
  }

  /** The push switch turns on only for a ready client whose permission
      request succeeded, and then a subscription is held. */
  lemma PushSwitchOnNeedsGrant(c: Client, permission: NotificationSettings.Permission,
                               answer: NotificationSettings.Permission, existing: Option<string>,
                               created: Option<string>, backendOk: bool, browserOk: bool, fetchOk: bool)
    ensures var r := PushToggle(false, c, permission, answer, existing, created, backendOk, browserOk, fetchOk);
      r.0 ==> Ready(c) && RequestPermission(c.supported, permission, answer) && r.1.client.held.Some?
  {
  }

  /** Switching push off with both calls going through leaves the switch off,
      nothing held, and the held endpoint posted to the backend. */
  lemma PushSwitchOffReleases(c: Client, permission: NotificationSettings.Permission,
                              answer: NotificationSettings.Permission, existing: Option<string>,
                              created: Option<string>, backendOk: bool)
    ensures var r := PushToggle(true, c, permission, answer, existing, created, backendOk, true, true);
      !r.0 && r.1.client.held.None? && r.1.posted == c.held
  {
  }

  /** A subscription the backend refused is kept by the browser and the
      client: the switch shows off, yet pressing it again reuses that
      subscription, shows on, and posts nothing, so the backend never
      stores it. */
  lemma RefusedSubscriptionIsReusedUnposted(c: Client, answer: NotificationSettings.Permission, e: string,
                                            other: Option<string>, backendOk: bool)
    requires Ready(c)
    ensures var first := PushToggle(false, c, NotificationSettings.Granted, answer, None, Some(e), false, true, true);
      var second := PushToggle(false, first.1.client, NotificationSettings.Granted, answer, Some(e), other,
                               backendOk, true, true);
      && !first.0 && first.1.client.held == Some(e) && first.1.posted == Some(e)
      && second.0 && second.1.posted.None? && second.1.client.held == Some(e)
  {
  }

  /** A message the service worker posts to the page. */
  datatype Message = Message(kind: string, action: string, taskId: Option<string>)

  /** The message the worker posts for a click that carried a task id: the
      page's handler turns it into an event for exactly that task, and an
      empty id (which the worker never posts) into none. */
  function ClickMessage(taskId: string): (m: Message)
    ensures taskId != "" ==> HandleServiceWorkerMessage(m) == Some(taskId)
    ensures taskId == "" ==> HandleServiceWorkerMessage(m).None?
  {
    Message("NOTIFICATION_CLICKED", "view-task", Some(taskId))
  }

  /** `handleServiceWorkerMessage`: the task id of the
      `notification-task-clicked` event the page dispatches, if any. */
  function HandleServiceWorkerMessage(m: Message): (event: Option<string>)
    ensures event.Some? <==> m.kind == "NOTIFICATION_CLICKED" && m.action == "view-task" && Given(m.taskId)
    ensures event.Some? ==> event == m.taskId
  {
    if m.kind == "NOTIFICATION_CLICKED" && m.action == "view-task" && Given(m.taskId) then m.taskId else None
  }

  /** The click path end to end: a task reminder the backend accepts is
      pushed, shown by either worker, clicked (on the body or on View) and
      relayed to the page, which receives the reminder's task id. */
  lemma ReminderClickReachesPage(v: ServiceWorker.Variant, b: PushRoutes.TaskBody, action: string,
                                 urls: seq<string>, origin: string)
    requires PushRoutes.TaskReminderRequest(b).Ok?
    ensures var p := PushRoutes.PayloadOf(PushRoutes.TaskReminderRequest(b).value);
      var d := ServiceWorker.MergePush(v, ServiceWorker.Json(ServiceWorker.AsJson(p)));
      var c := ServiceWorker.NotificationClick(action, d.data, urls, origin);
      && c.posted == b.taskId
      && HandleServiceWorkerMessage(ClickMessage(c.posted.value)) == b.taskId
  {
    var req := PushRoutes.TaskReminderRequest(b).value;
    ServiceWorker.NotifyShownAsSent(v, req);
  }
}

=== FILE: push_routes.dfy ===
/** The push notification routes: subscribe (upsert by endpoint), unsubscribe
    (soft deactivation), notify (fan-out to every active record with
    per-record outcome handling), the two task payload routes that delegate to
    notify, and the status counts. Delivery itself is an input: the gateway's
    outcome for each attempted record, in registry order. */
module PushRoutes {
  import opened Common
  import opened PushSubscription

  datatype KeysBody = KeysBody(p256dh: Option<string>, auth: Option<string>)

  datatype SubscribeBody = SubscribeBody(
    endpoint: Option<string>,
    keys: Option<KeysBody>,
    userId: Option<string>)

  /** The route's guard: endpoint, keys and both key strings truthy. */
  predicate WellFormed(b: SubscribeBody) {
    Given(b.endpoint) && b.keys.Some? && Given(b.keys.value.p256dh) && Given(b.keys.value.auth)
  }

  function KeysOf(b: SubscribeBody): Keys
    requires WellFormed(b)
  {
    Keys(b.keys.value.p256dh.value, b.keys.value.auth.value)
  }

  /** POST /subscribe: answers with the position of the saved record. */
  function Subscribe(r: Registry, b: SubscribeBody, now: int): (res: (Registry, Reply<nat>))
    ensures !WellFormed(b) ==> res == (r, BadRequest)
    ensures WellFormed(b) ==> res.1.Ok? && res.1.value < |res.0|
    ensures WellFormed(b) ==>
      res.0[res.1.value] == (match IndexOf(r, b.endpoint.value)
                             case Some(k) => r[k].(keys := KeysOf(b), lastUsed := now, isActive := true)
                             case None => NewSubscription(b.endpoint.value, KeysOf(b), b.userId, now))
    ensures WellFormed(b) && IndexOf(r, b.endpoint.value).Some? ==>
      res.0 == r[IndexOf(r, b.endpoint.value).value := res.0[res.1.value]]
    ensures WellFormed(b) && IndexOf(r, b.endpoint.value).None? ==>
      res.0 == r + [res.0[res.1.value]]
  {
    if !WellFormed(b) then (r, BadRequest)
    else
      match IndexOf(r, b.endpoint.value)
      case Some(k) =>
        (r[k := r[k].(keys := KeysOf(b), lastUsed := now, isActive := true)], Ok(k))
      case None =>
        (r + [NewSubscription(b.endpoint.value, KeysOf(b), b.userId, now)], Ok(|r|))
  }

  /** Subscribing keeps one complete record per endpoint. */
  lemma SubscribeKeepsValid(r: Registry, b: SubscribeBody, now: int)
    requires Valid(r)
    ensures Valid(Subscribe(r, b, now).0)
  {
    var res := Subscribe(r, b, now);
    if WellFormed(b) && IndexOf(r, b.endpoint.value).None? {
      forall i, j | 0 <= i < j < |res.0| ensures res.0[i].endpoint != res.0[j].endpoint {
        if j == |r| {
          assert res.0[i] == r[i];
        }
      }
    }
  }

  /** Subscribing twice with one endpoint leaves one record for it, holding
      the second keys, active, and no record is added by the second call. */
  lemma ResubscribeReplacesKeys(r: Registry, b1: SubscribeBody, b2: SubscribeBody, t1: int, t2: int)
    requires Valid(r)
    requires WellFormed(b1) && WellFormed(b2) && b1.endpoint == b2.endpoint
    ensures var r1 := Subscribe(r, b1, t1).0;
      var r2 := Subscribe(r1, b2, t2).0;
      && |r2| == |r1|
      && (forall i, j :: (0 <= i < |r2| && 0 <= j < |r2| && r2[i].endpoint == b1.endpoint.value
                          && r2[j].endpoint == b1.endpoint.value) ==> i == j)
      && (exists k :: 0 <= k < |r2| && r2[k].endpoint == b1.endpoint.value
            && r2[k].keys == KeysOf(b2) && r2[k].isActive)
  {
    var e := b1.endpoint.value;
    var r1 := Subscribe(r, b1, t1).0;
    SubscribeKeepsValid(r, b1, t1);
    var k1 := Subscribe(r, b1, t1).1.value;
    assert r1[k1].endpoint == e;
    IndexOfUnique(r1, e, k1);
    var r2 := Subscribe(r1, b2, t2).0;
    SubscribeKeepsValid(r1, b2, t2);
    assert r2[k1].endpoint == e && r2[k1].keys == KeysOf(b2) && r2[k1].isActive;
  }

  /** POST /unsubscribe: clears the active flag of the endpoint's record. */
  function Unsubscribe(r: Registry, endpoint: Option<string>): (res: (Registry, Reply<()>))
    ensures !Given(endpoint) ==> res == (r, BadRequest)
    ensures Given(endpoint) ==> res.1.Ok?
    ensures |res.0| == |r|
    ensures forall i :: 0 <= i < |r| ==>
      res.0[i] == (if Given(endpoint) && r[i].endpoint == endpoint.value
                   && IndexOf(r, endpoint.value) == Some(i)
                   then r[i].(isActive := false) else r[i])
  {
    if !Given(endpoint) then (r, BadRequest)
    else
      match IndexOf(r, endpoint.value)
      case None => (r, Ok(()))
      case Some(k) => (r[k := r[k].(isActive := false)], Ok(()))
  }

  /** An unknown endpoint is still a success and changes nothing; a known one
      becomes inactive and every other record is untouched. */
  lemma UnsubscribeOnlyThatEndpoint(r: Registry, e: string)
    requires Valid(r) && e != ""
    ensures var res := Unsubscribe(r, Some(e));
      && res.1.Ok?
      && Valid(res.0)
      && (forall i :: 0 <= i < |r| && r[i].endpoint != e ==> res.0[i] == r[i])
      && (forall i :: 0 <= i < |r| && r[i].endpoint == e ==> !res.0[i].isActive)
      && ((forall i :: 0 <= i < |r| ==> r[i].endpoint != e) ==> res.0 == r)
  {
    var res := Unsubscribe(r, Some(e));
    forall i | 0 <= i < |r| && r[i].endpoint == e ensures !res.0[i].isActive {
      IndexOfUnique(r, e, i);
    }
  }

  /** GET /status. */
  function Status(r: Registry): (counts: (nat, nat))
    ensures counts.0 <= counts.1 == |r|
    ensures counts.0 == CountActive(r)
  {
    (CountActive(r), |r|)
  }

  /** Routing data carried by a notification. `{}` is all fields absent. */
  datatype Data = Data(kind: Option<string>, taskId: Option<string>, reminderMinutes: Option<int>)

  const NoData: Data := Data(None, None, None)

  datatype NotifyBody = NotifyBody(
    title: Option<string>,
    body: Option<string>,
    icon: Option<string>,
    tag: Option<string>,
    data: Option<Data>,
    actions: Option<seq<Action>>)

  /** The JSON payload every subscriber receives. */
  datatype Payload = Payload(
    title: string, body: string, icon: string, tag: string, data: Data, actions: seq<Action>)

  const DefaultIcon: string := "/manifest-icon-192.png"
  const DefaultTag: string := "study-tracker-notification"
  const ViewDismiss: seq<Action> := [Action("view", "View"), Action("dismiss", "Dismiss")]

  /** `icon || default`, `tag || default`, `data || {}`, `actions || [view, dismiss]`:
      an object or array is always truthy, so given data or actions (even an
      empty list) are kept. */
  function PayloadOf(b: NotifyBody): (p: Payload)
    requires Given(b.title) && Given(b.body)
    ensures p.title == b.title.value && p.body == b.body.value
    ensures p.icon == (if Given(b.icon) then b.icon.value else DefaultIcon)
    ensures p.tag == (if Given(b.tag) then b.tag.value else DefaultTag)
    ensures p.data == (if b.data.Some? then b.data.value else NoData)
    ensures p.actions == (if b.actions.Some? then b.actions.value else ViewDismiss)
  {
    Payload(b.title.value, b.body.value, OrElse(b.icon, DefaultIcon), OrElse(b.tag, DefaultTag),
            Default(b.data, NoData), Default(b.actions, ViewDismiss))
  }

  /** What the gateway reports for one delivery attempt. */
  datatype Delivery = Delivered | Failed(statusCode: Option<int>)

  /** 404 and 410 mean the endpoint no longer exists. */
  predicate Gone(d: Delivery) {
    d.Failed? && (d.statusCode == Some(404) || d.statusCode == Some(410))
  }

  datatype SendResult = SendResult(success: bool, endpoint: string)

  /** The effect of one attempt on its record. */
  function Attempt(s: Subscription, d: Delivery, now: int): (s': Subscription)
    ensures s'.endpoint == s.endpoint && s'.keys == s.keys && s'.userId == s.userId
    ensures s'.createdAt == s.createdAt
    ensures d.Delivered? ==> s' == s.(lastUsed := now)
    ensures Gone(d) ==> s' == s.(isActive := false)
    ensures d.Failed? && !Gone(d) ==> s' == s
  {
    match d
    case Delivered => s.(lastUsed := now)
    case Failed(_) => if Gone(d) then s.(isActive := false) else s
  }

  /** Sends to each active record in turn; `outcomes[j]` is the gateway's
      answer for the j-th active record. */
  function FanOut(r: Registry, outcomes: seq<Delivery>, now: int): (res: (Registry, seq<SendResult>))
    requires |outcomes| == CountActive(r)
    ensures |res.0| == |r| && |res.1| == |outcomes|
    decreases |r|
  {
    if |r| == 0 then ([], [])
    else
      ActiveUnfold(r);
      if r[0].isActive then
        var rest := FanOut(r[1..], outcomes[1..], now);
        ([Attempt(r[0], outcomes[0], now)] + rest.0,
         [SendResult(outcomes[0].Delivered?, r[0].endpoint)] + rest.1)
      else
        var rest := FanOut(r[1..], outcomes, now);
        ([r[0]] + rest.0, rest.1)
  }

  /** The j-th result reports the j-th active record, and succeeds exactly
      when its delivery did. */
  lemma {:induction false} FanOutResults(r: Registry, outcomes: seq<Delivery>, now: int)
    requires |outcomes| == CountActive(r)
    ensures var res := FanOut(r, outcomes, now).1;
      forall j :: 0 <= j < |res| ==>
        res[j] == SendResult(outcomes[j].Delivered?, Active(r)[j].endpoint)
    decreases |r|
  {
    if |r| > 0 {
      var res := FanOut(r, outcomes, now).1;
      ActiveUnfold(r);
      if r[0].isActive {
        var rest := FanOut(r[1..], outcomes[1..], now).1;
        FanOutResults(r[1..], outcomes[1..], now);
        assert res == [SendResult(outcomes[0].Delivered?, r[0].endpoint)] + rest;
        forall j | 0 <= j < |res|
          ensures res[j] == SendResult(outcomes[j].Delivered?, Active(r)[j].endpoint)
        {
          if j > 0 {
            assert res[j] == rest[j - 1];
            assert Active(r)[j] == Active(r[1..])[j - 1];
            assert outcomes[j] == outcomes[1..][j - 1];
          }
        }
      } else {
        FanOutResults(r[1..], outcomes, now);
      }
    }
  }

  /** The active records before position i > 0: the first record's share
      plus those before i in the tail. */
  lemma CountActivePrefix(r: Registry, i: nat)
    requires 0 < i <= |r|
    ensures CountActive(r[..i]) == (if r[0].isActive then 1 else 0) + CountActive(r[1..][..i - 1])
  {
    assert r[..i] == [r[0]] + r[1..][..i - 1];
    CountActiveCons(r[0], r[1..][..i - 1]);
  }

  /** What record i becomes in the fan-out, given its outcomes. */
  predicate RecordAfter(r: Registry, outcomes: seq<Delivery>, res: Registry, i: nat, now: int)
    requires i < |r| && i < |res|
  {
    && (CountActive(r[..i]) < |outcomes| || !r[i].isActive)
    && res[i] == (if r[i].isActive then Attempt(r[i], outcomes[CountActive(r[..i])], now) else r[i])
  }

  /** A record after the first keeps, in the whole registry, what it became
      in the tail: its rank there is shifted by the first record's share. */
  lemma RecordAfterTail(r: Registry, outcomes: seq<Delivery>, o': seq<Delivery>, res: Registry, i: nat, now: int)
    requires 0 < i < |r| && |res| == |r|
    requires r[0].isActive ==> |outcomes| > 0 && o' == outcomes[1..]
    requires !r[0].isActive ==> o' == outcomes
    requires RecordAfter(r[1..], o', res[1..], i - 1, now)
    ensures RecordAfter(r, outcomes, res, i, now)
  {
    CountActivePrefix(r, i);
    assert r[i] == r[1..][i - 1] && res[i] == res[1..][i - 1];
  }

  /** Record i is attempted with the outcome at its rank among the active
      records; inactive records are not touched. */
  lemma {:induction false} FanOutRecords(r: Registry, outcomes: seq<Delivery>, now: int)
    requires |outcomes| == CountActive(r)
    ensures forall i :: 0 <= i < |r| ==> RecordAfter(r, outcomes, FanOut(r, outcomes, now).0, i, now)
    decreases |r|
  {
    if |r| > 0 {
      var res := FanOut(r, outcomes, now).0;
      ActiveUnfold(r);
      var o' := if r[0].isActive then outcomes[1..] else outcomes;
      FanOutRecords(r[1..], o', now);
      var rest := FanOut(r[1..], o', now).0;
      assert res == [res[0]] + rest;
      assert res[1..] == rest;
      assert r[..0] == [];
      assert RecordAfter(r, outcomes, res, 0, now);
      forall i | 0 < i < |r| ensures RecordAfter(r, outcomes, res, i, now) {
        RecordAfterTail(r, outcomes, o', res, i, now);
      }
    }
  }

  function CountGone(outcomes: seq<Delivery>): nat {
    Count(outcomes, Gone)
  }

  /** The first outcome's share of the gone count plus the rest's. */
  lemma CountGoneUnfold(outcomes: seq<Delivery>)
    requires |outcomes| > 0
    ensures CountGone(outcomes) == (if Gone(outcomes[0]) then 1 else 0) + CountGone(outcomes[1..])
  {
  }

  /** Each active record leaves the fan-out inactive exactly when its attempt
      reported the endpoint gone; everything else keeps its flag. */
  lemma {:induction false} FanOutDeactivatesGone(r: Registry, outcomes: seq<Delivery>, now: int)
    requires |outcomes| == CountActive(r)
    ensures CountActive(FanOut(r, outcomes, now).0) == CountActive(r) - CountGone(outcomes)
    decreases |r|
  {
    if |r| > 0 {
      var res := FanOut(r, outcomes, now).0;
      ActiveUnfold(r);
      if r[0].isActive {
        var rest := FanOut(r[1..], outcomes[1..], now).0;
        FanOutDeactivatesGone(r[1..], outcomes[1..], now);
        assert res == [Attempt(r[0], outcomes[0], now)] + rest;
        CountActiveCons(Attempt(r[0], outcomes[0], now), rest);
        CountGoneUnfold(outcomes);
      } else {
        var rest := FanOut(r[1..], outcomes, now).0;
        FanOutDeactivatesGone(r[1..], outcomes, now);
        assert res == [r[0]] + rest;
        CountActiveCons(r[0], rest);
      }
    }
  }

  /** Every result is either a success or a failure. */
  lemma {:induction false} SuccessesPlusFailures(results: seq<SendResult>)
    ensures Count(results, (x: SendResult) => x.success) + Count(results, (x: SendResult) => !x.success) == |results|
    decreases |results|
  {
    if |results| > 0 {
      SuccessesPlusFailures(results[1..]);
    }
  }

  datatype NotifyReply =
    | Invalid
    | NoActiveSubscriptions
    | Sent(payload: Payload, results: seq<SendResult>, successful: nat, failed: nat)

  /** POST /notify. `outcomes` are the gateway's answers for the active
      records, in registry order. */
  function Notify(r: Registry, b: NotifyBody, outcomes: seq<Delivery>, now: int): (res: (Registry, NotifyReply))
    requires |outcomes| == CountActive(r)
    ensures !Given(b.title) || !Given(b.body) ==> res == (r, Invalid)
    ensures Given(b.title) && Given(b.body) && CountActive(r) == 0 ==> res == (r, NoActiveSubscriptions)
    ensures Given(b.title) && Given(b.body) && CountActive(r) > 0 ==>
      && res.1.Sent? && res.1.payload == PayloadOf(b)
      && (res.0, res.1.results) == FanOut(r, outcomes, now)
    ensures res.1.Sent? ==> forall i :: 0 <= i < |r| ==> RecordAfter(r, outcomes, res.0, i, now)
    ensures res.1.Sent? ==> forall j :: 0 <= j < |res.1.results| ==>
      res.1.results[j] == SendResult(outcomes[j].Delivered?, Active(r)[j].endpoint)
    ensures res.1.Sent? ==> |res.1.results| == CountActive(r) > 0
    ensures res.1.Sent? ==> res.1.successful + res.1.failed == |res.1.results|
    ensures res.1.Sent? ==> res.1.successful == Count(outcomes, (d: Delivery) => d.Delivered?)
    ensures res.1.Sent? ==> CountActive(res.0) == CountActive(r) - CountGone(outcomes)
    ensures |res.0| == |r|
  {
    if !Given(b.title) || !Given(b.body) then (r, Invalid)
    else if CountActive(r) == 0 then (r, NoActiveSubscriptions)
    else
      var sent := FanOut(r, outcomes, now);
      var ok := Count(sent.1, (x: SendResult) => x.success);
      var bad := Count(sent.1, (x: SendResult) => !x.success);
      SuccessesPlusFailures(sent.1);
      FanOutResults(r, outcomes, now);
      FanOutRecords(r, outcomes, now);
      FanOutDeactivatesGone(r, outcomes, now);
      SuccessCountMatches(sent.1, outcomes);
      (sent.0, Sent(PayloadOf(b), sent.1, ok, bad))
  }

  /** Results mirror outcomes, so counting successes counts deliveries. */
  lemma {:induction false} SuccessCountMatches(results: seq<SendResult>, outcomes: seq<Delivery>)
    requires |results| == |outcomes|
    requires forall j :: 0 <= j < |results| ==> (results[j].success <==> outcomes[j].Delivered?)
    ensures Count(results, (x: SendResult) => x.success) == Count(outcomes, (d: Delivery) => d.Delivered?)
    decreases |results|
  {
    if |results| > 0 {
      SuccessCountMatches(results[1..], outcomes[1..]);
    }
  }

  datatype TaskBody = TaskBody(taskId: Option<string>, taskTitle: Option<string>, reminderMinutes: Option<int>)

  /** POST /notify/task-reminder: the payload handed on to notify. The lead
      time defaults to 5 only when absent. */
  function TaskReminderRequest(b: TaskBody): (res: Reply<NotifyBody>)
    ensures res.BadRequest? <==> !Given(b.taskId) || !Given(b.taskTitle)
    ensures res.Ok? || res.BadRequest?
    ensures res.Ok? ==> && Given(res.value.title) && Given(res.value.body)
                        && res.value.tag == Some("task-reminder-" + b.taskId.value)
                        && res.value.data == Some(Data(Some("task-reminder"), b.taskId,
                                                       Some(Default(b.reminderMinutes, 5))))
  {
    if !Given(b.taskId) || !Given(b.taskTitle) then BadRequest
    else
      var minutes := Default(b.reminderMinutes, 5);
      Ok(NotifyBody(
        Some("Task Reminder"),
        Some(b.taskTitle.value + " starts in " + IntToString(minutes) + " minutes!"),
        Some(DefaultIcon),
        Some("task-reminder-" + b.taskId.value),
        Some(Data(Some("task-reminder"), b.taskId, Some(minutes))),
        Some([Action("view", "View Task"), Action("dismiss", "Snooze")])))
  }

  /** POST /notify/task-completed. */
  function TaskCompletedRequest(b: TaskBody, random: real): (res: Reply<NotifyBody>)
    requires 0.0 <= random < 1.0
    ensures res.BadRequest? <==> !Given(b.taskId) || !Given(b.taskTitle)
    ensures res.Ok? || res.BadRequest?
    ensures res.Ok? ==> && Given(res.value.title) && Given(res.value.body)
                        && res.value.tag == Some("task-completed-" + b.taskId.value)
                        && res.value.data == Some(Data(Some("task-completed"), b.taskId, None))
    ensures res.Ok? ==>
      exists i :: 0 <= i < |CompletionMessages| && res.value.body == Some(b.taskTitle.value + " - " + CompletionMessages[i])
  {
    if !Given(b.taskId) || !Given(b.taskTitle) then BadRequest
    else
      var i := MessageIndex(random, |CompletionMessages|);
      Ok(NotifyBody(
        Some("Task Completed!"),
        Some(b.taskTitle.value + " - " + CompletionMessages[i]),
        Some(DefaultIcon),
        Some("task-completed-" + b.taskId.value),
        Some(Data(Some("task-completed"), b.taskId, None)),
        Some([Action("view", "Celebrate!"), Action("dismiss", "Next Task")])))
  }

  /** The task routes answer 400 themselves or pass a payload that notify
      never rejects. */
  lemma TaskReminderNeverInvalidAtNotify(r: Registry, b: TaskBody, outcomes: seq<Delivery>, now: int)
    requires |outcomes| == CountActive(r)
    requires TaskReminderRequest(b).Ok?
    ensures !Notify(r, TaskReminderRequest(b).value, outcomes, now).1.Invalid?
  {
  }
}

=== FILE: push_subscription.dfy ===
/** The push subscription record and the registry holding one record per
    delivery endpoint. Records are never removed: unsubscribing and permanent
    delivery failures only clear `isActive`. */
module PushSubscription {
  import opened Common

  datatype Keys = Keys(p256dh: string, auth: string)

  datatype Subscription = Subscription(
    endpoint: string,
    keys: Keys,
    userId: string,
    createdAt: int,
    lastUsed: int,
    isActive: bool)

  /** The owner recorded when a subscriber names none. */
  const AnonymousUser: string := "anonymous"

  /** The schema's required fields: endpoint and both key strings. */
  predicate Complete(s: Subscription) {
    s.endpoint != "" && s.keys.p256dh != "" && s.keys.auth != ""
  }

  /** A freshly created record: the schema fills in the owner, both
      timestamps and the active flag. */
  function NewSubscription(endpoint: string, keys: Keys, userId: Option<string>, now: int): (s: Subscription)
    ensures s.endpoint == endpoint && s.keys == keys
    ensures userId.None? ==> s.userId == AnonymousUser
    ensures userId.Some? ==> s.userId == userId.value
    ensures s.isActive && s.createdAt == now && s.lastUsed == now
  {
    Subscription(endpoint, keys, Default(userId, AnonymousUser), now, now, true)
  }

  type Registry = seq<Subscription>

  /** The unique index on `endpoint`. */
  predicate UniqueEndpoints(r: Registry) {
    forall i, j :: 0 <= i < j < |r| ==> r[i].endpoint != r[j].endpoint
  }

  predicate AllComplete(r: Registry) {
    forall i :: 0 <= i < |r| ==> Complete(r[i])
  }

  /** The registry's invariant: one complete record per endpoint. */
  predicate Valid(r: Registry) {
    UniqueEndpoints(r) && AllComplete(r)
  }

  function Active(r: Registry): seq<Subscription> {
    Filter(r, (s: Subscription) => s.isActive)
  }

  function CountActive(r: Registry): nat {
    |Active(r)|
  }

  /** Position of the record for an endpoint. */
  function IndexOf(r: Registry, endpoint: string): (k: Option<nat>)
    ensures k.None? <==> forall i :: 0 <= i < |r| ==> r[i].endpoint != endpoint
    ensures k.Some? ==> k.value < |r| && r[k.value].endpoint == endpoint
    decreases |r|
  {
    if |r| == 0 then None
    else if r[0].endpoint == endpoint then Some(0)
    else
      match IndexOf(r[1..], endpoint)
      case None => None
      case Some(k) => Some(k + 1)
  }

  /** With unique endpoints, the record found is the only one. */
  lemma IndexOfUnique(r: Registry, endpoint: string, i: nat)
    requires UniqueEndpoints(r)
    requires i < |r| && r[i].endpoint == endpoint
    ensures IndexOf(r, endpoint) == Some(i)
  {
  }

  /** The active records, one record at a time from the front. */
  lemma ActiveUnfold(r: Registry)
    requires |r| > 0
    ensures Active(r) == (if r[0].isActive then [r[0]] else []) + Active(r[1..])
  {
  }

  /** Counting active records, one record at a time from the front. */
  lemma CountActiveCons(s: Subscription, r: Registry)
    ensures CountActive([s] + r) == (if s.isActive then 1 else 0) + CountActive(r)
  {
    assert ([s] + r)[1..] == r;
  }
}

=== FILE: service_worker.dfy ===
/** The service worker (two near-identical copies: `Root` is public/sw.js,
    `Frontend` is frontend/public/sw.js). It keeps the page's task list with
    two sent flags per task and checks it once a minute, arms timers on the
    page's request, merges push payloads over its defaults, and routes
    notification clicks. Timers and storage are not run: arming returns the
    delay, and the stored list is passed in and returned. */
module ServiceWorker {
  import opened Common
  import opened Clock
  import opened TrackerApp
  import PushRoutes

  datatype Variant = Root | Frontend

  /** A task as the worker stores it: the page's record and the two flags
      the minute check sets. */
  datatype Stored = Stored(task: Item, reminderSent: bool, startNotificationSent: bool)

  /** The worker's own lead, fixed at five minutes whatever the settings say. */
  const WorkerLead: int := 5

  datatype Kind = Reminder | Start

  function Flag(s: Stored, k: Kind): bool {
    match k
    case Reminder => s.reminderSent
    case Start => s.startNotificationSent
  }

  function Tag(k: Kind, t: Item): string {
    match k
    case Reminder => "reminder-" + Default(t.id, "undefined")
    case Start => "task-" + Default(t.id, "undefined")
  }

  /** One notification shown by the minute check. */
  datatype Note = Note(index: nat, kind: Kind, tag: string)

  /** The tasks the minute check looks at: with a time, not completed, dated today. */
  predicate Examined(t: Item, today: int) {
    t.time != "" && !t.completed && t.date == today
  }

  /** A two-minute window starting at minute `at`. */
  predicate InWindow(at: int, current: int) {
    at <= current < at + 2
  }

  /** Minute of day at which an event of kind `k` is due. */
  function DueMinute(k: Kind, m: int): int {
    match k
    case Reminder => m - WorkerLead
    case Start => m
  }

  /** Whether the check at minute `current` shows event `k` of stored task `s`. */
  predicate Fires(s: Stored, k: Kind, today: int, current: int) {
    && Examined(s.task, today)
    && ParseClock(s.task.time).Some?
    && InWindow(DueMinute(k, ParseClock(s.task.time).value), current)
    && !Flag(s, k)
  }

  /** The minute check on one stored task: each event shows when due and not
      yet sent, and then its flag is set. */
  function CheckOne(s: Stored, today: int, current: int): (r: Stored)
    ensures r.task == s.task
    ensures r.reminderSent == (s.reminderSent || Fires(s, Reminder, today, current))
    ensures r.startNotificationSent == (s.startNotificationSent || Fires(s, Start, today, current))
  {
    if !Examined(s.task, today) then s
    else
      match ParseClock(s.task.time)
      case None => s
      case Some(m) =>
        var remind := current >= m - WorkerLead && current < m - WorkerLead + 2 && !s.reminderSent;
        var start := current >= m && current < m + 2 && !s.startNotificationSent;
        Stored(s.task, s.reminderSent || remind, s.startNotificationSent || start)
  }

  function NotesOne(s: Stored, index: nat, today: int, current: int): seq<Note> {
    (if Fires(s, Reminder, today, current) then [Note(index, Reminder, Tag(Reminder, s.task))] else [])
    + (if Fires(s, Start, today, current) then [Note(index, Start, Tag(Start, s.task))] else [])
  }

  /** The reminder window ends three minutes before the start window opens,
      so one check never shows both events of a task. */
  lemma OneEventPerCheck(s: Stored, today: int, current: int)
    ensures !(Fires(s, Reminder, today, current) && Fires(s, Start, today, current))
  {
  }

  /** The notes `checkAndSendNotifications` shows for the stored tasks from
      position `base` on, in list order. */
  function NotesFrom(st: seq<Stored>, base: nat, today: int, current: int): seq<Note>
    decreases |st|
  {
    if |st| == 0 then []
    else NotesOne(st[0], base, today, current) + NotesFrom(st[1..], base + 1, today, current)
  }

  /** Note `x` reports a due, unsent event of the task it names, among the
      stored tasks numbered from `base`. */
  predicate NoteOk(st: seq<Stored>, base: nat, x: Note, today: int, current: int) {
    && base <= x.index < base + |st|
    && Fires(st[x.index - base], x.kind, today, current)
    && x.tag == Tag(x.kind, st[x.index - base].task)
  }

  /** Every note shown is a due, unsent event of a task in range. */
  lemma {:induction false} NotesSound(st: seq<Stored>, base: nat, today: int, current: int)
    ensures forall x :: x in NotesFrom(st, base, today, current) ==> NoteOk(st, base, x, today, current)
    decreases |st|
  {
    if |st| > 0 {
      var here := NotesOne(st[0], base, today, current);
      var rest := NotesFrom(st[1..], base + 1, today, current);
      NotesSound(st[1..], base + 1, today, current);
      forall x | x in here + rest ensures NoteOk(st, base, x, today, current) {
        if x in rest {
          assert NoteOk(st[1..], base + 1, x, today, current);
          assert st[1..][x.index - (base + 1)] == st[x.index - base];
        }
      }
    }
  }

  /** A due, unsent event of one task is among that task's notes. */
  lemma InNotesOne(s: Stored, index: nat, k: Kind, today: int, current: int)
    requires Fires(s, k, today, current)
    ensures Note(index, k, Tag(k, s.task)) in NotesOne(s, index, today, current)
  {
    match k
    case Reminder =>
    case Start =>
  }

  /** Every due, unsent event of a task in range is shown. */
  lemma {:induction false} NotesComplete(st: seq<Stored>, base: nat, today: int, current: int)
    ensures forall i, k :: 0 <= i < |st| && Fires(st[i], k, today, current) ==>
      Note(base + i, k, Tag(k, st[i].task)) in NotesFrom(st, base, today, current)
    decreases |st|
  {
    if |st| > 0 {
      var head := NotesOne(st[0], base, today, current);
      var rest := NotesFrom(st[1..], base + 1, today, current);
      assert NotesFrom(st, base, today, current) == head + rest;
      NotesComplete(st[1..], base + 1, today, current);
      forall i, k | 0 <= i < |st| && Fires(st[i], k, today, current)
        ensures Note(base + i, k, Tag(k, st[i].task)) in head + rest
      {
        if i > 0 {
          assert st[i] == st[1..][i - 1];
          assert Note(base + i, k, Tag(k, st[i].task)) in rest;
        } else {
          InNotesOne(st[0], base, k, today, current);
        }
      }
    }
  }

  /** Notes in strictly increasing task order. */
  predicate Increasing(n: seq<Note>) {
    forall j1, j2 :: 0 <= j1 < j2 < |n| ==> n[j1].index < n[j2].index
  }

  /** No task's reminder or start appears twice among the notes. */
  predicate NoRepeats(n: seq<Note>) {
    forall j1, j2 :: 0 <= j1 < j2 < |n| ==> !(n[j1].index == n[j2].index && n[j1].kind == n[j2].kind)
  }

  /** Two lists without repeats that share no event join without repeats. */
  lemma NoRepeatsAppend(a: seq<Note>, b: seq<Note>)
    requires NoRepeats(a) && NoRepeats(b)
    requires forall x, y :: x in a && y in b ==> !(x.index == y.index && x.kind == y.kind)
    ensures NoRepeats(a + b)
  {
    var n := a + b;
    forall j1, j2 | 0 <= j1 < j2 < |n| ensures !(n[j1].index == n[j2].index && n[j1].kind == n[j2].kind) {
      if j1 < |a| && j2 >= |a| {
        assert n[j1] in a && n[j2] == b[j2 - |a|] && n[j2] in b;
      } else if j1 >= |a| {
        assert n[j1] == b[j1 - |a|] && n[j2] == b[j2 - |a|];
      }
    }
  }

  /** The notes come in strictly increasing task order: at most one note per
      task, in list order. */
  lemma {:induction false} NotesOrdered(st: seq<Stored>, base: nat, today: int, current: int)
    ensures Increasing(NotesFrom(st, base, today, current))
    decreases |st|
  {
    if |st| > 0 {
      var here := NotesOne(st[0], base, today, current);
      var rest := NotesFrom(st[1..], base + 1, today, current);
      NotesOrdered(st[1..], base + 1, today, current);
      NotesSound(st[1..], base + 1, today, current);
      OneEventPerCheck(st[0], today, current);
      var n := here + rest;
      assert n == NotesFrom(st, base, today, current);
      assert |here| <= 1;
      forall j | 0 <= j < |rest| ensures rest[j].index > base {
        assert rest[j] in rest;
        assert NoteOk(st[1..], base + 1, rest[j], today, current);
      }
      forall j1, j2 | 0 <= j1 < j2 < |n| ensures n[j1].index < n[j2].index {
        if j1 < |here| {
          assert n[j1] == here[0] && n[j2] == rest[j2 - |here|];
        } else {
          assert n[j1] == rest[j1 - |here|] && n[j2] == rest[j2 - |here|];
        }
      }
    }
  }

  /** One minute check over the whole stored list: the new list and the
      notifications shown, in list order. */
  function Check(st: seq<Stored>, today: int, current: int): (r: (seq<Stored>, seq<Note>))
    ensures |r.0| == |st|
    ensures forall i :: 0 <= i < |st| ==> r.0[i].task == st[i].task
    ensures forall i, k :: 0 <= i < |st| ==> (Flag(r.0[i], k) <==> Flag(st[i], k) || Fires(st[i], k, today, current))
    ensures forall x :: x in r.1 ==> NoteOk(st, 0, x, today, current)
    ensures forall i, k :: 0 <= i < |st| && Fires(st[i], k, today, current) ==> Note(i, k, Tag(k, st[i].task)) in r.1
    ensures Increasing(r.1) && NoRepeats(r.1)
  {
    NotesSound(st, 0, today, current);
    NotesComplete(st, 0, today, current);
    NotesOrdered(st, 0, today, current);
    (seq(|st|, i requires 0 <= i < |st| => CheckOne(st[i], today, current)), NotesFrom(st, 0, today, current))
  }

  /** The reading each check takes of the clock: the day of
      `toISOString` and the minute of day. */
  datatype Tick = Tick(day: int, minute: int)

  /** A sequence of minute checks over one stored list, each at its own
      reading of the clock, so a run may pass midnight. */
  function Run(st: seq<Stored>, clock: seq<Tick>): (r: (seq<Stored>, seq<Note>))
    ensures |r.0| == |st|
    ensures forall i :: 0 <= i < |st| ==> r.0[i].task == st[i].task
    ensures forall i, k :: 0 <= i < |st| && Flag(st[i], k) ==> Flag(r.0[i], k)
    decreases |clock|
  {
    if |clock| == 0 then (st, [])
    else
      var first := Check(st, clock[0].day, clock[0].minute);
      var rest := Run(first.0, clock[1..]);
      (rest.0, first.1 + rest.1)
  }

  /** An event whose flag is already set is never shown again by later
      checks, whatever day and minute they run at. */
  lemma {:induction false} SentStaysSilent(st: seq<Stored>, clock: seq<Tick>, i: nat, k: Kind)
    requires i < |st| && Flag(st[i], k)
    ensures forall n :: n in Run(st, clock).1 ==> !(n.index == i && n.kind == k)
    decreases |clock|
  {
    if |clock| > 0 {
      var first := Check(st, clock[0].day, clock[0].minute);
      SentStaysSilent(first.0, clock[1..], i, k);
      forall n | n in first.1 ensures !(n.index == i && n.kind == k) {
        assert NoteOk(st, 0, n, clock[0].day, clock[0].minute);
      }
    }
  }

  /** At most once per stored list: however many minute checks run over one
      stored list, on one day or across several, no task's reminder or start
      is shown twice. */
  lemma {:induction false} AtMostOncePerList(st: seq<Stored>, clock: seq<Tick>)
    ensures NoRepeats(Run(st, clock).1)
    decreases |clock|
  {
    if |clock| > 0 {
      var first := Check(st, clock[0].day, clock[0].minute);
      var rest := Run(first.0, clock[1..]);
      AtMostOncePerList(first.0, clock[1..]);
      forall x, y | x in first.1 && y in rest.1 ensures !(x.index == y.index && x.kind == y.kind) {
        SeenThenSilent(st, clock, x);
      }
      NoRepeatsAppend(first.1, rest.1);
    }
  }

  /** A note shown by the first check of a run never recurs in the rest,
      whatever the clock reads at the later checks. */
  lemma SeenThenSilent(st: seq<Stored>, clock: seq<Tick>, a: Note)
    requires |clock| > 0 && a in Check(st, clock[0].day, clock[0].minute).1
    ensures forall n :: n in Run(Check(st, clock[0].day, clock[0].minute).0, clock[1..]).1 ==>
      !(n.index == a.index && n.kind == a.kind)
  {
    var first := Check(st, clock[0].day, clock[0].minute);
    assert NoteOk(st, 0, a, clock[0].day, clock[0].minute);
    assert Flag(first.0[a.index], a.kind);
    SentStaysSilent(first.0, clock[1..], a.index, a.kind);
  }

  /** A stored task that is due and not yet reminded is reminded by the
      check at that minute. */
  lemma DueReminderShows(st: seq<Stored>, today: int, i: nat)
    requires i < |st| && Examined(st[i].task, today) && !st[i].reminderSent
    requires ParseClock(st[i].task.time).Some?
    ensures var m := ParseClock(st[i].task.time).value;
      Note(i, Reminder, Tag(Reminder, st[i].task)) in Check(st, today, m - WorkerLead).1
  {
    assert Fires(st[i], Reminder, today, ParseClock(st[i].task.time).value - WorkerLead);
  }

  /** A timer the worker arms. */
  datatype Arm = Arm(delay: int, kind: Kind, tag: string, body: string)

  predicate WithinDay(delay: int) {
    0 < delay <= DayMs
  }

  /** `scheduleReminderNotification`. */
  function ScheduleReminder(t: Item, reminderTime: int, minutes: int, now: int): (a: Option<Arm>)
    ensures a.Some? <==> WithinDay(reminderTime - now)
    ensures a.Some? ==> a.value.delay == reminderTime - now && a.value.kind == Reminder
                        && a.value.tag == Tag(Reminder, t)
  {
    var delay := reminderTime - now;
    if WithinDay(delay) then
      Some(Arm(delay, Reminder, Tag(Reminder, t), t.title + " starts in " + IntToString(minutes) + " minutes!"))
    else None
  }

  /** `scheduleTaskStartNotification`. */
  function ScheduleStart(t: Item, taskTime: int, now: int): (a: Option<Arm>)
    ensures a.Some? <==> WithinDay(taskTime - now)
    ensures a.Some? ==> a.value.delay == taskTime - now && a.value.kind == Start && a.value.tag == Tag(Start, t)
  {
    var delay := taskTime - now;
    if WithinDay(delay) then Some(Arm(delay, Start, Tag(Start, t), "Time for: " + t.title)) else None
  }

  /** `scheduleTaskNotifications`: both arms for a task, the reminder exactly
      five minutes before the start. A time that does not read as a number
      arms nothing. */
  function ScheduleTask(t: Item, now: int): (r: (Option<Arm>, Option<Arm>))
    ensures ParseClock(t.time).None? ==> r == (None, None)
    ensures ParseClock(t.time).Some? ==>
      var at := StartInstant(t.date, ParseClock(t.time).value);
      && r.0 == ScheduleReminder(t, at - WorkerLead * MinuteMs, WorkerLead, now)
      && r.1 == ScheduleStart(t, at, now)
    ensures r.0.Some? && r.1.Some? ==> r.1.value.delay - r.0.value.delay == WorkerLead * MinuteMs
  {
    match ParseClock(t.time)
    case None => (None, None)
    case Some(m) =>
      var at := StartInstant(t.date, m);
      (ScheduleReminder(t, at - WorkerLead * MinuteMs, WorkerLead, now), ScheduleStart(t, at, now))
  }

  /** The tasks UPDATE_TASKS arms: not completed, with a time. Dates are day
      numbers here, so every task has one. */
  predicate Schedulable(t: Item) {
    !t.completed && t.time != ""
  }

  function ArmEach(tasks: seq<Item>, now: int): (r: seq<(Option<Arm>, Option<Arm>)>)
    ensures |r| == |tasks|
    ensures forall i :: 0 <= i < |tasks| ==> r[i] == ScheduleTask(tasks[i], now)
    decreases |tasks|
  {
    if |tasks| == 0 then [] else [ScheduleTask(tasks[0], now)] + ArmEach(tasks[1..], now)
  }

  /** UPDATE_TASKS: the page's list replaces the stored one. The page's
      records carry no sent flags, so every flag reads false again and the
      minute check may show each event once more. */
  function UpdateTasks(tasks: seq<Item>, now: int): (r: (seq<Stored>, seq<(Option<Arm>, Option<Arm>)>))
    ensures |r.0| == |tasks|
    ensures forall i :: 0 <= i < |tasks| ==> r.0[i] == Stored(tasks[i], false, false)
    ensures |r.1| == |Filter(tasks, Schedulable)|
    ensures forall j :: 0 <= j < |r.1| ==>
      Schedulable(Filter(tasks, Schedulable)[j]) && r.1[j] == ScheduleTask(Filter(tasks, Schedulable)[j], now)
  {
    (seq(|tasks|, i requires 0 <= i < |tasks| => Stored(tasks[i], false, false)),
     ArmEach(Filter(tasks, Schedulable), now))
  }

  /** A page reminder handed to the worker is armed by the worker with the
      same delay when both use the same clock. */
  lemma WorkerMatchesPageReminder(t: Item, instant: int, minutes: int, now: int)
    requires WithinDay(instant - now)
    ensures ScheduleReminder(t, instant, minutes, now).Some?
    ensures ScheduleReminder(t, instant, minutes, now).value.delay == instant - now
  {
  }

  /** What the worker puts on screen for a push. */
  datatype Display = Display(
    title: string,
    body: string,
    icon: string,
    badge: string,
    tag: string,
    requireInteraction: bool,
    vibrate: seq<int>,
    data: Option<PushRoutes.Data>,
    actions: Option<seq<Action>>)

  function DefaultDisplay(v: Variant): (d: Display)
    ensures d.title != "" && d.body != "" && d.icon != "" && d.tag != ""
    ensures d.data.None? && d.actions.None? && d.requireInteraction
  {
    var icon := if v == Root then "/manifest-icon-192.png" else "/favicon.ico";
    Display(if v == Root then "Study Tracker" else "Study Tracker ", "You have a new notification!",
            icon, icon, "study-tracker-notification", true, [200, 100, 200, 100, 200], None, None)
  }

  /** A push event: no payload, a payload that is not JSON, or a JSON object. */
  datatype Push = NoPayload | Unparsable | Json(body: PushRoutes.NotifyBody)

  const DefaultActions: seq<Action> := [Action("view", "View"), Action("dismiss", "Dismiss")]

  /** The push handler's merge: each of title, body, icon and tag replaces
      the default only when truthy; data defaults to `{}` and actions to
      view/dismiss. Without a payload, or with one that does not parse, the
      defaults are shown as they are. */
  function MergePush(v: Variant, p: Push): (d: Display)
    ensures !p.Json? ==> d == DefaultDisplay(v)
    ensures p.Json? ==>
      && d.title == OrElse(p.body.title, DefaultDisplay(v).title)
      && d.body == OrElse(p.body.body, DefaultDisplay(v).body)
      && d.icon == OrElse(p.body.icon, DefaultDisplay(v).icon)
      && d.tag == OrElse(p.body.tag, DefaultDisplay(v).tag)
      && d.data == Some(Default(p.body.data, PushRoutes.NoData))
      && d.actions == Some(Default(p.body.actions, DefaultActions))
      && d.badge == DefaultDisplay(v).badge && d.vibrate == DefaultDisplay(v).vibrate
      && d.requireInteraction
  {
    var d := DefaultDisplay(v);
    match p
    case Json(b) =>
      d.(title := OrElse(b.title, d.title), body := OrElse(b.body, d.body),
         icon := OrElse(b.icon, d.icon), tag := OrElse(b.tag, d.tag),
         data := Some(Default(b.data, PushRoutes.NoData)), actions := Some(Default(b.actions, DefaultActions)))
    case _ => d
  }

  /** The JSON the backend sends for a payload, as the worker parses it. */
  function AsJson(p: PushRoutes.Payload): PushRoutes.NotifyBody {
    PushRoutes.NotifyBody(Some(p.title), Some(p.body), Some(p.icon), Some(p.tag), Some(p.data), Some(p.actions))
  }

  /** Whatever /notify accepts is shown by either worker exactly as sent. */
  lemma NotifyShownAsSent(v: Variant, b: PushRoutes.NotifyBody)
    requires Given(b.title) && Given(b.body)
    ensures var p := PushRoutes.PayloadOf(b);
      var d := MergePush(v, Json(AsJson(p)));
      && d.title == p.title && d.body == p.body && d.icon == p.icon && d.tag == p.tag
      && d.data == Some(p.data) && d.actions == Some(p.actions)
  {
    assert PushRoutes.DefaultIcon != "" && PushRoutes.DefaultTag != "";
  }

  /** `url.includes(origin)`. */
  predicate HasSubstring(s: string, sub: string)
    decreases |s|
  {
    (|sub| <= |s| && s[..|sub|] == sub) || (|s| > 0 && HasSubstring(s[1..], sub))
  }

  /** The first window whose URL contains the origin. */
  function FirstOwnWindow(urls: seq<string>, origin: string): (k: Option<nat>)
    ensures k.Some? ==> k.value < |urls| && HasSubstring(urls[k.value], origin)
                        && forall j :: 0 <= j < k.value ==> !HasSubstring(urls[j], origin)
    ensures k.None? ==> forall j :: 0 <= j < |urls| ==> !HasSubstring(urls[j], origin)
    decreases |urls|
  {
    if |urls| == 0 then None
    else if HasSubstring(urls[0], origin) then Some(0)
    else match FirstOwnWindow(urls[1..], origin)
      case None => None
      case Some(k) => Some(k + 1)
  }

  datatype WindowAction = Focus(client: nat) | OpenRoot | Nothing

  /** The effect of a click: what happens to windows, and the task id posted
      to every window as NOTIFICATION_CLICKED / view-task, if any. */
  datatype Click = Click(window: WindowAction, posted: Option<string>)

  /** `notificationclick`. `action` is "" when the body of the notification
      was clicked; `data` is the notification's data; `urls` are the open
      windows' URLs. */
  function NotificationClick(action: string, data: Option<PushRoutes.Data>, urls: seq<string>, origin: string)
    : (c: Click)
    ensures action != "view" && action != "" ==> c.window == Nothing
    ensures (action == "view" || action == "") ==>
      match FirstOwnWindow(urls, origin)
      case Some(k) => c.window == Focus(k)
      case None => c.window == OpenRoot
    ensures c.posted.Some? <==>
      data.Some? && data.value.kind == Some("task-reminder") && Given(data.value.taskId)
    ensures c.posted.Some? ==> c.posted == data.value.taskId
  {
    var d := Default(data, PushRoutes.NoData);
    var window :=
      if action == "view" || action == "" then
        match FirstOwnWindow(urls, origin)
        case Some(k) => Focus(k)
        case None => OpenRoot
      else Nothing;
    Click(window, if d.kind == Some("task-reminder") && Given(d.taskId) then d.taskId else None)
  }
}

=== FILE: settings.dfy ===
/** Notification settings as the page keeps them in local storage, the two
    places that read them back (the notification manager and the settings
    panel), and the panel's toggles. */
module NotificationSettings {
  import opened Common

  datatype Settings = Settings(
    enabled: bool,
    dailyReminders: bool,
    taskReminders: bool,
    completionNotifications: bool,
    reminderMinutes: int)

  /** Off, with the three kinds of notification on and a five-minute lead. */
  const Defaults: Settings := Settings(false, true, true, true, 5)

  /** A stored settings object: each of the five keys present or absent. */
  datatype Stored = Stored(
    enabled: Option<bool>,
    dailyReminders: Option<bool>,
    taskReminders: Option<bool>,
    completionNotifications: Option<bool>,
    reminderMinutes: Option<int>)

  /** What local storage holds under the settings key. */
  datatype Blob = Missing | Unparsable | Parsed(stored: Stored)

  /** The manager's load: stored keys spread over the defaults; nothing
      stored, or a parse error, gives exactly the defaults. */
  function Load(b: Blob): (s: Settings)
    ensures !b.Parsed? ==> s == Defaults
    ensures b.Parsed? ==>
      && (b.stored.enabled.Some? ==> s.enabled == b.stored.enabled.value)
      && (b.stored.dailyReminders.Some? ==> s.dailyReminders == b.stored.dailyReminders.value)
      && (b.stored.taskReminders.Some? ==> s.taskReminders == b.stored.taskReminders.value)
      && (b.stored.completionNotifications.Some? ==>
            s.completionNotifications == b.stored.completionNotifications.value)
      && (b.stored.reminderMinutes.Some? ==> s.reminderMinutes == b.stored.reminderMinutes.value)
    ensures b.Parsed? ==>
      && (b.stored.enabled.None? ==> s.enabled == Defaults.enabled)
      && (b.stored.dailyReminders.None? ==> s.dailyReminders == Defaults.dailyReminders)
      && (b.stored.taskReminders.None? ==> s.taskReminders == Defaults.taskReminders)
      && (b.stored.completionNotifications.None? ==>
            s.completionNotifications == Defaults.completionNotifications)
      && (b.stored.reminderMinutes.None? ==> s.reminderMinutes == Defaults.reminderMinutes)
  {
    match b
    case Parsed(st) =>
      Settings(
        Default(st.enabled, Defaults.enabled),
        Default(st.dailyReminders, Defaults.dailyReminders),
        Default(st.taskReminders, Defaults.taskReminders),
        Default(st.completionNotifications, Defaults.completionNotifications),
        Default(st.reminderMinutes, Defaults.reminderMinutes))
    case _ => Defaults
  }

  /** The panel's save writes exactly the five fields. */
  function Save(s: Settings): (st: Stored)
    ensures st.enabled.Some? && st.dailyReminders.Some? && st.taskReminders.Some?
    ensures st.completionNotifications.Some? && st.reminderMinutes.Some?
  {
    Stored(Some(s.enabled), Some(s.dailyReminders), Some(s.taskReminders),
           Some(s.completionNotifications), Some(s.reminderMinutes))
  }

  /** The manager reads back whatever the panel saved. */
  lemma SaveThenLoad(s: Settings)
    ensures Load(Parsed(Save(s))) == s
  {
  }

  /** The panel's load. An absent entry reads as `{}`; `enabled || false`,
      `x !== false` for the three kinds, and `reminderMinutes || 5`, which
      also replaces a stored 0. `None` is a parse error, which the panel's
      effect does not catch. */
  function PanelLoad(b: Blob): (s: Option<Settings>)
    ensures b.Unparsable? <==> s.None?
    ensures b.Missing? ==> s == Some(Defaults)
    ensures b.Parsed? ==>
      && s.value.enabled == (b.stored.enabled == Some(true))
      && s.value.dailyReminders == (b.stored.dailyReminders != Some(false))
      && s.value.taskReminders == (b.stored.taskReminders != Some(false))
      && s.value.completionNotifications == (b.stored.completionNotifications != Some(false))
      && (b.stored.reminderMinutes.Some? && b.stored.reminderMinutes.value != 0 ==>
            s.value.reminderMinutes == b.stored.reminderMinutes.value)
      && (b.stored.reminderMinutes.None? || b.stored.reminderMinutes == Some(0) ==>
            s.value.reminderMinutes == 5)
  {
    match b
    case Missing => Some(Defaults)
    case Unparsable => None
    case Parsed(st) =>
      Some(Settings(
        st.enabled == Some(true),
        st.dailyReminders != Some(false),
        st.taskReminders != Some(false),
        st.completionNotifications != Some(false),
        if st.reminderMinutes.None? || st.reminderMinutes == Some(0) then 5 else st.reminderMinutes.value))
  }

  /** The two loaders agree on every parsed object except one holding a lead
      of 0, which the manager keeps and the panel turns into 5. */
  lemma LoadersAgreeUnlessZeroLead(st: Stored)
    ensures PanelLoad(Parsed(st)) == Some(Load(Parsed(st))) <==> st.reminderMinutes != Some(0)
  {
    if st.reminderMinutes == Some(0) {
      assert PanelLoad(Parsed(st)).value.reminderMinutes == 5;
    }
  }

  /** The lead times the panel offers. */
  const LeadChoices: seq<int> := [1, 5, 10, 15, 30]

  /** Picking a lead from the panel's list. */
  function ChooseLead(s: Settings, i: nat): (s': Settings)
    requires i < |LeadChoices|
    ensures s'.reminderMinutes in LeadChoices && s'.reminderMinutes > 0
    ensures s' == s.(reminderMinutes := s'.reminderMinutes)
  {
    s.(reminderMinutes := LeadChoices[i])
  }

  /** Whatever the panel saves after a lead choice is read back the same by
      the panel and by the manager. */
  lemma PanelSavesAgree(s: Settings, i: nat)
    requires i < |LeadChoices|
    ensures PanelLoad(Parsed(Save(ChooseLead(s, i)))) == Some(ChooseLead(s, i))
    ensures Load(Parsed(Save(ChooseLead(s, i)))) == ChooseLead(s, i)
  {
    LoadersAgreeUnlessZeroLead(Save(ChooseLead(s, i)));
  }

  datatype Permission = Prompt | Granted | Denied

  /** The panel's master switch. While permission is denied the checkbox is
      disabled and a press does nothing. Otherwise, when off without
      permission it asks for permission instead of flipping, and switches on
      only if the answer is a grant; else it flips. `supported` is whether
      the browser has a notification API at all; `answer` is the user's reply
      to the prompt. */
  function ToggleNotifications(enabled: bool, permission: Permission, supported: bool, answer: Permission)
    : (r: (bool, Permission))
    ensures permission == Denied ==> r == (enabled, permission)
    ensures enabled && permission != Denied ==> r == (false, permission)
    ensures !enabled && permission == Granted ==> r == (true, Granted)
    ensures !enabled && permission == Prompt && !supported ==> r == (false, Prompt)
    ensures !enabled && permission == Prompt && supported ==> r == (answer == Granted, answer)
  {
    if permission == Denied then (enabled, permission)
    else if !enabled && permission != Granted then
      if supported then (answer == Granted, answer) else (enabled, permission)
    else (!enabled, permission)
  }

  /** The master switch never ends up on without a granted permission, and
      it can be switched off exactly when permission is not denied. */
  lemma ToggleOnNeedsGrant(enabled: bool, permission: Permission, supported: bool, answer: Permission)
    ensures var r := ToggleNotifications(enabled, permission, supported, answer);
      && (r.0 && !enabled ==> r.1 == Granted)
      && (enabled ==> (!r.0 <==> permission != Denied))
  {
  }
}

=== FILE: sorting.dfy ===
/** Ordering used by the store's `sort` clauses and by the month view:
    lexicographic string comparison and a stable insertion sort over any
    total preorder. */
module Sorting {
  import opened Common

  /** A comparison usable for sorting: total and transitive. */
  ghost predicate TotalPreorder<T(!new)>(le: (T, T) -> bool) {
    && (forall a, b :: le(a, b) || le(b, a))
    && (forall a, b, c :: le(a, b) && le(b, c) ==> le(a, c))
  }

  predicate SortedBy<T>(xs: seq<T>, le: (T, T) -> bool) {
    forall i, j :: 0 <= i < j < |xs| ==> le(xs[i], xs[j])
  }

  /** Inserts `x` after every element that must precede it. */
  function Insert<T(!new)>(x: T, xs: seq<T>, le: (T, T) -> bool): (r: seq<T>)
    requires TotalPreorder(le)
    requires SortedBy(xs, le)
    ensures |r| == |xs| + 1
    ensures multiset(r) == multiset(xs) + multiset{x}
    ensures forall i :: 0 <= i < |r| ==> r[i] == x || r[i] in xs
    ensures SortedBy(r, le)
    decreases |xs|
  {
    if |xs| == 0 then [x]
    else if le(x, xs[0]) then
      assert SortedBy([x] + xs, le) by {
        forall i, j | 0 <= i < j < |[x] + xs|
          ensures le(([x] + xs)[i], ([x] + xs)[j])
        {
          if i > 0 {
            assert le(xs[i - 1], xs[j - 1]);
          } else if j > 1 {
            assert le(xs[0], xs[j - 1]);
          }
        }
      }
      [x] + xs
    else
      var rest := Insert(x, xs[1..], le);
      assert xs == [xs[0]] + xs[1..];
      assert SortedBy([xs[0]] + rest, le) by {
        forall k | 0 <= k < |rest|
          ensures le(xs[0], rest[k])
        {
          if rest[k] != x {
            assert rest[k] in xs[1..];
            var m :| 0 <= m < |xs[1..]| && xs[1..][m] == rest[k];
            assert le(xs[0], xs[m + 1]);
          }
        }
      }
      [xs[0]] + rest
  }

  /** Insertion sort: a sorted permutation of the input. Equal elements keep
      their input order (SortByStable). */
  function SortBy<T(!new)>(xs: seq<T>, le: (T, T) -> bool): (r: seq<T>)
    requires TotalPreorder(le)
    ensures |r| == |xs|
    ensures multiset(r) == multiset(xs)
    ensures SortedBy(r, le)
    decreases |xs|
  {
    if |xs| == 0 then []
    else
      assert xs == [xs[0]] + xs[1..];
      Insert(xs[0], SortBy(xs[1..], le), le)
  }

  /** The elements that `le` ranks level with `z`. */
  function SameRank<T>(le: (T, T) -> bool, z: T): T -> bool {
    y => le(z, y) && le(y, z)
  }

  /** Insertion puts `x` ahead of the elements level with it and leaves the
      others' order alone. */
  lemma {:induction false} InsertStable<T(!new)>(x: T, ys: seq<T>, le: (T, T) -> bool, z: T)
    requires TotalPreorder(le)
    requires SortedBy(ys, le)
    ensures Filter(Insert(x, ys, le), SameRank(le, z))
         == Filter([x], SameRank(le, z)) + Filter(ys, SameRank(le, z))
    decreases |ys|
  {
    var p := SameRank(le, z);
    if |ys| == 0 {
    } else if le(x, ys[0]) {
      FilterAppend([x], ys, p);
    } else {
      var rest := ys[1..];
      assert ys == [ys[0]] + rest;
      assert SortedBy(rest, le) by {
        forall i, j | 0 <= i < j < |rest| ensures le(rest[i], rest[j]) {
          assert le(ys[i + 1], ys[j + 1]);
        }
      }
      InsertStable(x, rest, le, z);
      FilterAppend([ys[0]], Insert(x, rest, le), p);
      FilterAppend([ys[0]], rest, p);
      if p(x) {
        assert !p(ys[0]);
        assert Filter([ys[0]], p) == [];
      }
    }
  }

  /** The sort is stable: the elements level with any `z` come out in the
      order they went in. */
  lemma {:induction false} SortByStable<T(!new)>(xs: seq<T>, le: (T, T) -> bool, z: T)
    requires TotalPreorder(le)
    ensures Filter(SortBy(xs, le), SameRank(le, z)) == Filter(xs, SameRank(le, z))
    decreases |xs|
  {
    if |xs| > 0 {
      SortByStable(xs[1..], le, z);
      InsertStable(xs[0], SortBy(xs[1..], le), le, z);
      assert xs == [xs[0]] + xs[1..];
      FilterAppend([xs[0]], xs[1..], SameRank(le, z));
    }
  }

  /** Lexicographic order on strings by code unit, the order MongoDB and
      JavaScript use to compare string fields. */
  predicate StrLe(a: string, b: string)
    decreases |a|
  {
    if |a| == 0 then true
    else if |b| == 0 then false
    else if a[0] != b[0] then a[0] < b[0]
    else StrLe(a[1..], b[1..])
  }

  lemma {:induction false} StrLeTotal(a: string, b: string)
    ensures StrLe(a, b) || StrLe(b, a)
    decreases |a|
  {
    if |a| > 0 && |b| > 0 && a[0] == b[0] {
      StrLeTotal(a[1..], b[1..]);
    }
  }

  lemma {:induction false} StrLeTransitive(a: string, b: string, c: string)
    requires StrLe(a, b) && StrLe(b, c)
    ensures StrLe(a, c)
    decreases |a|
  {
    if |a| > 0 && |b| > 0 && |c| > 0 && a[0] == b[0] && b[0] == c[0] {
      StrLeTransitive(a[1..], b[1..], c[1..]);
    }
  }

  lemma {:induction false} StrLeAntisymmetric(a: string, b: string)
    requires StrLe(a, b) && StrLe(b, a)
    ensures a == b
    decreases |a|
  {
    if |a| > 0 {
      StrLeAntisymmetric(a[1..], b[1..]);
      assert a == [a[0]] + a[1..] && b == [b[0]] + b[1..];
    }
  }
}

=== FILE: task_routes.dfy ===
/** The calendar task routes: create with validation and defaults, update and
    delete of one task identified by id and owner, and the three read queries
    (list, date range, upcoming within the hour). The collection is a sequence
    in insertion order whose ids are unique. */
module TaskRoutes {
  import opened Common
  import opened Sorting
  import opened Clock
  import opened CalendarTask

  type Store = seq<Task>

  /** The document store's primary key: no two tasks share an id. */
  predicate UniqueIds(s: Store) {
    forall i, j :: 0 <= i < j < |s| ==> s[i].id != s[j].id
  }

  predicate HasId(s: Store, id: string) {
    exists i :: 0 <= i < |s| && s[i].id == id
  }

  /** The `userId` a request falls back to when it names none. */
  const DefaultUser: string := "default"

  datatype CreateBody = CreateBody(
    title: Option<string>,
    description: Option<string>,
    category: Option<string>,
    date: Option<int>,
    time: Option<string>,
    endTime: Option<string>,
    priority: Option<string>,
    userId: Option<string>)

  /** The route's guard: title, date and time must all be truthy. */
  predicate HasRequired(b: CreateBody) {
    Given(b.title) && b.date.Some? && Given(b.time)
  }

  /** The draft the route hands to the schema: `||` defaults for the optional
      text fields, a destructuring default for the owner. */
  function DraftOf(b: CreateBody): Draft
    requires HasRequired(b)
  {
    Draft(b.title.value, OrElse(b.description, ""), OrElse(b.category, "study"),
          b.date.value, b.time.value, OrElse(b.endTime, ""), OrElse(b.priority, "medium"),
          Default(b.userId, DefaultUser))
  }

  /** POST /: `id` is the identifier the database assigns to the new document. */
  function Create(s: Store, b: CreateBody, id: string, now: int): (r: (Store, Reply<Task>))
    ensures !HasRequired(b) ==> r == (s, BadRequest)
    ensures r.1.Ok? <==> HasRequired(b) && !HasId(s, id) && Construct(DraftOf(b), id, now).Some?
    ensures r.1.Ok? ==> r.0 == s + [r.1.value] && r.1.value.id == id
    ensures !r.1.Ok? ==> r.0 == s
    ensures UniqueIds(s) ==> UniqueIds(r.0)
  {
    if !HasRequired(b) then (s, BadRequest)
    else
      match Construct(DraftOf(b), id, now)
      case None => (s, ServerError)
      case Some(t) => if HasId(s, id) then (s, ServerError) else (s + [t], Ok(t))
  }

  /** A request that names only the required fields gets every default. */
  lemma CreateDefaults(s: Store, title: string, date: int, time: string, id: string, now: int)
    requires Trim(title) != "" && time != "" && !HasId(s, id)
    ensures var r := Create(s, CreateBody(Some(title), None, None, Some(date), Some(time), None, None, None), id, now);
      && r.1.Ok?
      && r.1.value.description == "" && r.1.value.category == Study
      && r.1.value.endTime == "" && r.1.value.priority == Medium
      && r.1.value.userId == "default"
      && !r.1.value.completed && !r.1.value.notificationSent
  {
    var b := CreateBody(Some(title), None, None, Some(date), Some(time), None, None, None);
    assert DraftOf(b) == Draft(title, "", "study", date, time, "", "medium", "default");
    SchemaDefaults(title, date, time, id, now);
  }

  /** PUT /:id body. Absent fields are left out of the update. */
  datatype Patch = Patch(
    title: Option<string>,
    description: Option<string>,
    category: Option<string>,
    date: Option<int>,
    time: Option<string>,
    endTime: Option<string>,
    priority: Option<string>,
    completed: Option<bool>,
    notificationSent: Option<bool>)

  /** The task with every given field written, title and description
      trimmed, and the already-checked enum values in place. */
  function Written(t: Task, p: Patch, category: Category, priority: Priority): (u: Task)
    ensures u.id == t.id && u.userId == t.userId && u.createdAt == t.createdAt
    ensures u.category == category && u.priority == priority
    ensures u.title == (if p.title.Some? then Trim(p.title.value) else t.title)
    ensures u.description == (if p.description.Some? then Trim(p.description.value) else t.description)
    ensures u.date == (if p.date.Some? then p.date.value else t.date)
    ensures u.time == (if p.time.Some? then p.time.value else t.time)
    ensures u.endTime == (if p.endTime.Some? then p.endTime.value else t.endTime)
    ensures u.completed == (if p.completed.Some? then p.completed.value else t.completed)
    ensures u.notificationSent == (if p.notificationSent.Some? then p.notificationSent.value else t.notificationSent)
  {
    Task(t.id, if p.title.Some? then Trim(p.title.value) else t.title,
         if p.description.Some? then Trim(p.description.value) else t.description,
         category, Default(p.date, t.date), Default(p.time, t.time), Default(p.endTime, t.endTime),
         priority, Default(p.completed, t.completed), Default(p.notificationSent, t.notificationSent),
         t.userId, t.createdAt)
  }

  /** What the update validators check, which looks at the update alone and
      not at the stored task: a given title must not trim to '', a given time
      must not be '', and a given category or priority must name a value. */
  predicate PatchValid(p: Patch) {
    && (p.title.Some? ==> Trim(p.title.value) != "")
    && (p.time.Some? ==> p.time.value != "")
    && (p.category.Some? ==> ParseCategory(p.category.value).Some?)
    && (p.priority.Some? ==> ParsePriority(p.priority.value).Some?)
  }

  /** The update with validators on: trimmed title and a time may not be
      empty, enums must name a value. `None` is a validation error. */
  function ApplyPatch(t: Task, p: Patch): (r: Option<Task>)
    ensures r.None? <==> || (p.title.Some? && Trim(p.title.value) == "")
                         || (p.time.Some? && p.time.value == "")
                         || (p.category.Some? && ParseCategory(p.category.value).None?)
                         || (p.priority.Some? && ParsePriority(p.priority.value).None?)
    ensures r.Some? <==> PatchValid(p)
    ensures r.Some? ==> r.value.id == t.id && r.value.userId == t.userId && r.value.createdAt == t.createdAt
    ensures r.Some? && p.title.Some? ==> r.value.title == Trim(p.title.value)
    ensures r.Some? && p.description.Some? ==> r.value.description == Trim(p.description.value)
    ensures r.Some? && p.category.Some? ==> ParseCategory(p.category.value) == Some(r.value.category)
    ensures r.Some? && p.date.Some? ==> r.value.date == p.date.value
    ensures r.Some? && p.time.Some? ==> r.value.time == p.time.value
    ensures r.Some? && p.endTime.Some? ==> r.value.endTime == p.endTime.value
    ensures r.Some? && p.priority.Some? ==> ParsePriority(p.priority.value) == Some(r.value.priority)
    ensures r.Some? && p.completed.Some? ==> r.value.completed == p.completed.value
    ensures r.Some? && p.notificationSent.Some? ==> r.value.notificationSent == p.notificationSent.value
    ensures r.Some? ==> && (p.title.None? ==> r.value.title == t.title)
                        && (p.description.None? ==> r.value.description == t.description)
                        && (p.category.None? ==> r.value.category == t.category)
                        && (p.date.None? ==> r.value.date == t.date)
                        && (p.time.None? ==> r.value.time == t.time)
                        && (p.endTime.None? ==> r.value.endTime == t.endTime)
                        && (p.priority.None? ==> r.value.priority == t.priority)
                        && (p.completed.None? ==> r.value.completed == t.completed)
                        && (p.notificationSent.None? ==> r.value.notificationSent == t.notificationSent)
    ensures p == Patch(None, None, None, None, None, None, None, None, None) ==> r == Some(t)
  {
    var category := if p.category.Some? then ParseCategory(p.category.value) else Some(t.category);
    var priority := if p.priority.Some? then ParsePriority(p.priority.value) else Some(t.priority);
    if (p.title.Some? && Trim(p.title.value) == "") || (p.time.Some? && p.time.value == "")
       || category.None? || priority.None? then None
    else
      Some(Written(t, p, category.value, priority.value))
  }

  predicate Owned(t: Task, id: string, user: string) {
    t.id == id && t.userId == user
  }

  /** Position of the first task with this id and owner. */
  function Find(s: Store, id: string, user: string): (k: Option<nat>)
    ensures k.None? <==> forall i :: 0 <= i < |s| ==> !Owned(s[i], id, user)
    ensures k.Some? ==> k.value < |s| && Owned(s[k.value], id, user)
    ensures k.Some? ==> forall i :: 0 <= i < k.value ==> !Owned(s[i], id, user)
    decreases |s|
  {
    if |s| == 0 then None
    else if Owned(s[0], id, user) then Some(0)
    else
      match Find(s[1..], id, user)
      case None => None
      case Some(k) => Some(k + 1)
  }

  /** PUT /:id. `idCasts` says whether the path id casts to a document id.
      The query casts its filter and, with validators on, checks the update
      before it looks for a match, so a malformed id or an invalid update is
      a 500 whether or not a task matches; only then is no match a 404. */
  function Update(s: Store, id: string, user: string, p: Patch, idCasts: bool): (r: (Store, Reply<Task>))
    ensures !idCasts || !PatchValid(p) ==> r == (s, ServerError)
    ensures idCasts && PatchValid(p) && Find(s, id, user).None? ==> r == (s, NotFound)
    ensures r.1.Ok? <==> idCasts && PatchValid(p) && Find(s, id, user).Some?
    ensures r.1.Ok? ==>
      && r.1.value == ApplyPatch(s[Find(s, id, user).value], p).value
      && r.0 == s[Find(s, id, user).value := r.1.value]
    ensures !r.1.Ok? ==> r.0 == s
    ensures |r.0| == |s|
    ensures r.1.Ok? ==> exists k :: 0 <= k < |s| && Owned(s[k], id, user) && r.0 == s[k := r.1.value]
    ensures r.1.Ok? ==> Owned(r.1.value, id, user)
    ensures UniqueIds(s) ==> UniqueIds(r.0)
  {
    if !idCasts || !PatchValid(p) then (s, ServerError)
    else
      match Find(s, id, user)
      case None => (s, NotFound)
      case Some(k) =>
        var t := ApplyPatch(s[k], p).value;
        (s[k := t], Ok(t))
  }

  /** DELETE /:id. A path id that does not cast to a document id is a 500. */
  function Delete(s: Store, id: string, user: string, idCasts: bool): (r: (Store, Reply<()>))
    ensures !idCasts ==> r == (s, ServerError)
    ensures r.1.NotFound? <==> idCasts && Find(s, id, user).None?
    ensures !r.1.Ok? ==> r.0 == s
    ensures r.1.Ok? <==> idCasts && Find(s, id, user).Some?
    ensures r.1.Ok? ==> |r.0| == |s| - 1
  {
    if !idCasts then (s, ServerError)
    else
      match Find(s, id, user)
      case None => (s, NotFound)
      case Some(k) => (s[..k] + s[k + 1..], Ok(()))
  }

  /** The store with every task of this id and owner filtered out. */
  function Without(s: Store, id: string, user: string): seq<Task> {
    Filter(s, (t: Task) => !Owned(t, id, user))
  }

  /** A store in which nothing is owned under this id loses nothing. */
  lemma WithoutNoneOwned(s: Store, id: string, user: string)
    requires forall i :: 0 <= i < |s| ==> !Owned(s[i], id, user)
    ensures Without(s, id, user) == s
  {
    FilterAll(s, (t: Task) => !Owned(t, id, user));
  }

  /** Dropping one task keeps the remaining ids unique. */
  lemma DropKeepsUnique(s: Store, k: nat)
    requires UniqueIds(s) && k < |s|
    ensures UniqueIds(s[..k] + s[k + 1..])
  {
    var d := s[..k] + s[k + 1..];
    forall i, j | 0 <= i < j < |d| ensures d[i].id != d[j].id {
      var i' := if i < k then i else i + 1;
      var j' := if j < k then j else j + 1;
      assert d[i] == s[i'] && d[j] == s[j'];
    }
  }

  /** With unique ids, a successful delete removes exactly the matched task
      and keeps every other task in order. */
  lemma DeleteRemovesExactly(s: Store, id: string, user: string, idCasts: bool)
    requires UniqueIds(s)
    requires Delete(s, id, user, idCasts).1.Ok?
    ensures Delete(s, id, user, idCasts).0 == Without(s, id, user)
    ensures UniqueIds(Delete(s, id, user, idCasts).0)
  {
    var k := Find(s, id, user).value;
    var a, b := s[..k], s[k + 1..];
    assert s == a + [s[k]] + b;
    WithoutNoneOwned(a, id, user);
    forall i | 0 <= i < |b| ensures !Owned(b[i], id, user) {
      assert b[i] == s[k + 1 + i];
    }
    WithoutNoneOwned(b, id, user);
    assert Without([s[k]], id, user) == [];
    FilterAppend(a + [s[k]], b, (t: Task) => !Owned(t, id, user));
    FilterAppend(a, [s[k]], (t: Task) => !Owned(t, id, user));
    assert a + [] == a;
    DropKeepsUnique(s, k);
  }

  /** GET / order: by time text, then by creation. */
  predicate TimeThenCreated(a: Task, b: Task) {
    StrLe(a.time, b.time) && (a.time == b.time ==> a.createdAt <= b.createdAt)
  }

  /** GET /range order: by day, then by time text. */
  predicate DateThenTime(a: Task, b: Task) {
    a.date < b.date || (a.date == b.date && StrLe(a.time, b.time))
  }

  /** GET /upcoming order: by time text. */
  predicate ByTime(a: Task, b: Task) {
    StrLe(a.time, b.time)
  }

  lemma TimeThenCreatedIsTotal()
    ensures TotalPreorder(TimeThenCreated)
  {
    forall a, b ensures TimeThenCreated(a, b) || TimeThenCreated(b, a) {
      StrLeTotal(a.time, b.time);
    }
    forall a, b, c | TimeThenCreated(a, b) && TimeThenCreated(b, c)
      ensures TimeThenCreated(a, c)
    {
      StrLeTransitive(a.time, b.time, c.time);
      if a.time == c.time {
        StrLeAntisymmetric(a.time, b.time);
      }
    }
  }

  lemma DateThenTimeIsTotal()
    ensures TotalPreorder(DateThenTime)
  {
    forall a, b ensures DateThenTime(a, b) || DateThenTime(b, a) {
      StrLeTotal(a.time, b.time);
    }
    forall a, b, c | DateThenTime(a, b) && DateThenTime(b, c)
      ensures DateThenTime(a, c)
    {
      if a.date == b.date == c.date {
        StrLeTransitive(a.time, b.time, c.time);
      }
    }
  }

  lemma ByTimeIsTotal()
    ensures TotalPreorder(ByTime)
  {
    forall a, b ensures ByTime(a, b) || ByTime(b, a) {
      StrLeTotal(a.time, b.time);
    }
    forall a, b, c | ByTime(a, b) && ByTime(b, c) ensures ByTime(a, c) {
      StrLeTransitive(a.time, b.time, c.time);
    }
  }

  predicate Listed(t: Task, user: string, date: Option<int>) {
    t.userId == user && (date.Some? ==> t.date == date.value)
  }

  /** GET /: the owner's tasks, on one day when a date is given. */
  function List(s: Store, user: string, date: Option<int>): (r: seq<Task>)
    ensures forall t :: t in r <==> t in s && Listed(t, user, date)
    ensures multiset(r) == multiset(Filter(s, t => Listed(t, user, date)))
    ensures SortedBy(r, TimeThenCreated)
  {
    TimeThenCreatedIsTotal();
    var kept := Filter(s, t => Listed(t, user, date));
    var r := SortBy(kept, TimeThenCreated);
    assert forall t :: t in r <==> t in kept by {
      forall t ensures t in r <==> t in kept {
        assert t in r <==> t in multiset(r);
        assert t in kept <==> t in multiset(kept);
      }
    }
    r
  }

  /** The owner's task lies between the two days, both included. */
  predicate InRange(t: Task, user: string, lo: int, hi: int) {
    t.userId == user && lo <= t.date <= hi
  }

  /** GET /range: both bounds are required; both are inclusive. */
  function Range(s: Store, user: string, start: Option<int>, end: Option<int>): (r: Reply<seq<Task>>)
    ensures r.BadRequest? <==> start.None? || end.None?
    ensures r.Ok? ==> forall t :: t in r.value <==>
      t in s && t.userId == user && start.value <= t.date <= end.value
    ensures r.Ok? ==> multiset(r.value) == multiset(Filter(s, t => InRange(t, user, start.value, end.value)))
    ensures r.Ok? ==> SortedBy(r.value, DateThenTime)
    ensures r.Ok? || r.BadRequest?
  {
    if start.None? || end.None? then BadRequest
    else
      DateThenTimeIsTotal();
      var kept := Filter(s, t => InRange(t, user, start.value, end.value));
      var r := SortBy(kept, DateThenTime);
      assert forall t :: t in r <==> t in kept by {
        forall t ensures t in r <==> t in kept {
          assert t in r <==> t in multiset(r);
          assert t in kept <==> t in multiset(kept);
        }
      }
      Ok(r)
  }

  /** The minute of the task's time lies in [current, current + 60]. */
  predicate DueWithinHour(time: string, current: int) {
    var m := ParseClock(time);
    m.Some? && current <= m.value <= current + 60
  }

  predicate Upcomes(t: Task, user: string, today: int, current: int) {
    && t.userId == user && t.date == today && !t.completed && !t.notificationSent
    && DueWithinHour(t.time, current)
  }

  /** GET /upcoming: `today` and `current` (minute of day) come from the clock. */
  function Upcoming(s: Store, user: string, today: int, current: int): (r: seq<Task>)
    ensures forall t :: t in r <==> t in s && Upcomes(t, user, today, current)
    ensures multiset(r) == multiset(Filter(s, t => Upcomes(t, user, today, current)))
    ensures SortedBy(r, ByTime)
  {
    ByTimeIsTotal();
    var kept := Filter(s, t => Upcomes(t, user, today, current));
    var r := SortBy(kept, ByTime);
    assert forall t :: t in r <==> t in kept by {
      forall t ensures t in r <==> t in kept {
        assert t in r <==> t in multiset(r);
        assert t in kept <==> t in multiset(kept);
      }
    }
    r
  }

  /** A one-day range holds the same tasks, with the same copies, as the
      list of that day. */
  lemma RangeOneDayIsDayList(s: Store, user: string, d: int)
    ensures multiset(Range(s, user, Some(d), Some(d)).value) == multiset(List(s, user, Some(d)))
  {
    FilterCongruent(s, t => InRange(t, user, d, d), t => Listed(t, user, Some(d)));
  }

  /** The upcoming tasks are some of the day's listed tasks: never a task,
      or a copy of one, that the day's list lacks. */
  lemma UpcomingInDayList(s: Store, user: string, today: int, current: int)
    ensures multiset(Upcoming(s, user, today, current)) <= multiset(List(s, user, Some(today)))
  {
    var day := Filter(s, t => Listed(t, user, Some(today)));
    FilterNarrows(s, t => Listed(t, user, Some(today)), t => Upcomes(t, user, today, current));
    FilterCounts(day, t => Upcomes(t, user, today, current));
  }

  /** Marking a task notified through the update route takes it out of the
      upcoming list for good: with unique ids no task of that id is upcoming
      afterwards, whatever the day and minute. */
  lemma MarkedNotUpcoming(s: Store, id: string, user: string, p: Patch, idCasts: bool, today: int, current: int)
    requires UniqueIds(s)
    requires p.notificationSent == Some(true)
    requires Update(s, id, user, p, idCasts).1.Ok?
    ensures forall t :: t in Upcoming(Update(s, id, user, p, idCasts).0, user, today, current) ==> t.id != id
  {
    var k := Find(s, id, user).value;
    var s' := Update(s, id, user, p, idCasts).0;
    forall t | t in Upcoming(s', user, today, current) ensures t.id != id {
      var j :| 0 <= j < |s'| && s'[j] == t;
      if j != k {
        assert s'[j] == s[j];
      }
    }
  }

  /** A rendered time is due within the hour exactly when its minute lies in
      the window. */
  lemma FormattedDue(m: nat, current: int)
    requires m < 24 * 60
    ensures DueWithinHour(FormatClock(m), current) <==> current <= m <= current + 60
  {
    FormatThenParse(m);
  }

  /** The hour window is inclusive at both ends, whatever the day holds. */
  lemma UpcomingWindowEdges(current: int)
    requires 0 <= current
    ensures DueWithinHour(FormatClock(current % 1440), current % 1440)
    ensures current % 1440 + 60 < 1440 ==> DueWithinHour(FormatClock(current % 1440 + 60), current % 1440)
    ensures current % 1440 + 61 < 1440 ==> !DueWithinHour(FormatClock(current % 1440 + 61), current % 1440)
  {
    var m := current % 1440;
    FormattedDue(m, m);
    if m + 60 < 1440 {
      FormattedDue(m + 60, m);
    }
    if m + 61 < 1440 {
      FormattedDue(m + 61, m);
    }
  }
}

=== FILE: tracker_app.dfy ===
/** The page's lists of calendar tasks and study blocks, and how each create,
    update and delete request changes them once the backend has answered. A
    backend answer is `None` when the response was not OK: the handler throws
    before touching the list. */
module TrackerApp {
  import opened Common
  import CalendarTask

  /** A calendar task as the page holds it. `id` is absent when the backend
      record carried neither `_id` nor `id`. */
  datatype Item = Item(
    id: Option<string>,
    title: string,
    category: string,
    date: int,
    time: string,
    endTime: string,
    priority: string,
    completed: bool,
    description: string,
    notificationSent: bool)

  /** A calendar task as the backend sends it back. */
  datatype SavedTask = SavedTask(
    mongoId: Option<string>,
    id: Option<string>,
    title: string,
    category: string,
    date: int,
    time: string,
    endTime: Option<string>,
    priority: Option<string>,
    completed: bool,
    description: string,
    notificationSent: bool)

  /** `saved._id ?? saved.id`. */
  function IdOf(mongoId: Option<string>, id: Option<string>): (r: Option<string>)
    ensures mongoId.Some? ==> r == mongoId
    ensures mongoId.None? ==> r == id
  {
    if mongoId.Some? then mongoId else id
  }

  /** The record the page keeps for a backend task: the backend id wins,
      a falsy end time becomes '' and a falsy priority 'medium'. */
  function Normalise(s: SavedTask): (i: Item)
    ensures i.id == IdOf(s.mongoId, s.id)
    ensures Given(s.endTime) ==> i.endTime == s.endTime.value
    ensures !Given(s.endTime) ==> i.endTime == ""
    ensures Given(s.priority) ==> i.priority == s.priority.value
    ensures !Given(s.priority) ==> i.priority == "medium"
    ensures i.title == s.title && i.category == s.category && i.date == s.date && i.time == s.time
    ensures i.completed == s.completed && i.description == s.description
    ensures i.notificationSent == s.notificationSent
  {
    Item(IdOf(s.mongoId, s.id), s.title, s.category, s.date, s.time,
         OrElse(s.endTime, ""), OrElse(s.priority, "medium"),
         s.completed, s.description, s.notificationSent)
  }

  /** The backend's JSON for a stored task. */
  function Serialise(t: CalendarTask.Task): SavedTask {
    SavedTask(Some(t.id), None, t.title, CalendarTask.CategoryName(t.category), t.date, t.time,
              Some(t.endTime), Some(CalendarTask.PriorityName(t.priority)), t.completed,
              t.description, t.notificationSent)
  }

  /** Normalising what the backend stored loses nothing the page shows: the
      id is the record's id, and end time and priority come through (an empty
      end time stays empty). */
  lemma NormaliseStoredTask(t: CalendarTask.Task)
    ensures var i := Normalise(Serialise(t));
      && i.id == Some(t.id) && i.title == t.title && i.date == t.date && i.time == t.time
      && i.endTime == t.endTime && i.priority == CalendarTask.PriorityName(t.priority)
      && i.category == CalendarTask.CategoryName(t.category)
      && i.completed == t.completed && i.notificationSent == t.notificationSent
  {
    assert CalendarTask.PriorityName(t.priority) != "";
  }

  /** A study block as the page holds it. */
  datatype Block = Block(id: Option<string>, subject: string, start: string, end: string, date: string)

  datatype SavedBlock = SavedBlock(
    mongoId: Option<string>, id: Option<string>, subject: string, start: string, end: string, date: string)

  function NormaliseBlock(s: SavedBlock): (b: Block)
    ensures b.id == IdOf(s.mongoId, s.id)
    ensures b.subject == s.subject && b.start == s.start && b.end == s.end && b.date == s.date
  {
    Block(IdOf(s.mongoId, s.id), s.subject, s.start, s.end, s.date)
  }

  /** `arr.map(x => x.id === id ? item : x)`: one list update shared by tasks
      and blocks. */
  function ReplaceWhere<T>(arr: seq<T>, idOf: T -> Option<string>, id: string, item: T): (r: seq<T>)
    ensures |r| == |arr|
    ensures forall i :: 0 <= i < |arr| && idOf(arr[i]) == Some(id) ==> r[i] == item
    ensures forall i :: 0 <= i < |arr| && idOf(arr[i]) != Some(id) ==> r[i] == arr[i]
    decreases |arr|
  {
    if |arr| == 0 then []
    else [if idOf(arr[0]) == Some(id) then item else arr[0]] + ReplaceWhere(arr[1..], idOf, id, item)
  }

  /** `arr.filter(x => x.id !== id)`: no item with the id is left, and every
      other item is kept with all its copies. */
  function RemoveWhere<T>(arr: seq<T>, idOf: T -> Option<string>, id: string): (r: seq<T>)
    ensures forall i :: 0 <= i < |r| ==> idOf(r[i]) != Some(id)
    ensures forall i :: 0 <= i < |arr| && idOf(arr[i]) != Some(id) ==> arr[i] in r
    ensures forall i :: 0 <= i < |r| ==> r[i] in arr
    ensures multiset(r) <= multiset(arr)
    ensures forall i :: 0 <= i < |arr| && idOf(arr[i]) != Some(id) ==> multiset(r)[arr[i]] == multiset(arr)[arr[i]]
  {
    FilterCounts(arr, (x: T) => idOf(x) != Some(id));
    Filter(arr, (x: T) => idOf(x) != Some(id))
  }

  /** The removal keeps order: it works piece by piece, whichever position
      the list is cut at, and on one item it drops it exactly when the item
      has the id. Together these determine the result. */
  lemma RemoveWhereSplits<T>(arr: seq<T>, idOf: T -> Option<string>, id: string)
    ensures forall k :: 0 <= k <= |arr| ==>
      RemoveWhere(arr, idOf, id) == RemoveWhere(arr[..k], idOf, id) + RemoveWhere(arr[k..], idOf, id)
    ensures forall x :: RemoveWhere([x], idOf, id) == if idOf(x) == Some(id) then [] else [x]
  {
    forall k | 0 <= k <= |arr|
      ensures RemoveWhere(arr, idOf, id) == RemoveWhere(arr[..k], idOf, id) + RemoveWhere(arr[k..], idOf, id)
    {
      assert arr == arr[..k] + arr[k..];
      FilterAppend(arr[..k], arr[k..], (x: T) => idOf(x) != Some(id));
    }
  }

  /** Deleting what was just created gives the list back without that id:
      an append followed by a delete of the same id is a delete. */
  lemma {:induction false} CreateThenDelete<T>(arr: seq<T>, idOf: T -> Option<string>, id: string, item: T)
    requires idOf(item) == Some(id)
    ensures RemoveWhere(arr + [item], idOf, id) == RemoveWhere(arr, idOf, id)
  {
    var p := (x: T) => idOf(x) != Some(id);
    FilterAppend(arr, [item], p);
    assert Filter([item], p) == [];
  }

  /** Deleting an id the list does not hold leaves it unchanged. */
  lemma RemoveAbsent<T>(arr: seq<T>, idOf: T -> Option<string>, id: string)
    requires forall i :: 0 <= i < |arr| ==> idOf(arr[i]) != Some(id)
    ensures RemoveWhere(arr, idOf, id) == arr
  {
    FilterAll(arr, (x: T) => idOf(x) != Some(id));
  }

  function TaskId(t: Item): Option<string> {
    t.id
  }

  function BlockId(b: Block): Option<string> {
    b.id
  }

  /** `createCalendarTask`: the normalised answer is appended at the end. */
  function CreateTask(arr: seq<Item>, answer: Option<SavedTask>): (r: (seq<Item>, Option<Item>))
    ensures answer.None? ==> r == (arr, None)
    ensures answer.Some? ==> && r.1 == Some(Normalise(answer.value))
                             && |r.0| == |arr| + 1 && r.0[..|arr|] == arr && r.0[|arr|] == r.1.value
  {
    match answer
    case None => (arr, None)
    case Some(s) => var item := Normalise(s); (arr + [item], Some(item))
  }

  /** `updateCalendarTask`: every task carrying the requested id is replaced
      by the normalised answer. */
  function UpdateTask(arr: seq<Item>, id: string, answer: Option<SavedTask>): (r: (seq<Item>, Option<Item>))
    ensures answer.None? ==> r == (arr, None)
    ensures answer.Some? ==> && r.1 == Some(Normalise(answer.value))
                             && |r.0| == |arr|
                             && (forall i :: 0 <= i < |arr| && arr[i].id == Some(id) ==> r.0[i] == r.1.value)
                             && (forall i :: 0 <= i < |arr| && arr[i].id != Some(id) ==> r.0[i] == arr[i])
  {
    match answer
    case None => (arr, None)
    case Some(s) => var item := Normalise(s); (ReplaceWhere(arr, TaskId, id, item), Some(item))
  }

  /** `deleteCalendarTask`: on an OK answer every task with the id goes and
      every other task stays, in order and with all its copies. */
  function DeleteTask(arr: seq<Item>, id: string, ok: bool): (r: seq<Item>)
    ensures !ok ==> r == arr
    ensures ok ==> forall i :: 0 <= i < |r| ==> r[i].id != Some(id) && r[i] in arr
    ensures ok ==> forall i :: 0 <= i < |arr| && arr[i].id != Some(id) ==> arr[i] in r
    ensures ok ==> multiset(r) <= multiset(arr)
    ensures ok ==> forall i :: 0 <= i < |arr| && arr[i].id != Some(id) ==> multiset(r)[arr[i]] == multiset(arr)[arr[i]]
    ensures ok ==> forall k :: 0 <= k <= |arr| ==> r == RemoveWhere(arr[..k], TaskId, id) + RemoveWhere(arr[k..], TaskId, id)
  {
    RemoveWhereSplits(arr, TaskId, id);
    if ok then RemoveWhere(arr, TaskId, id) else arr
  }

  function CreateBlock(arr: seq<Block>, answer: Option<SavedBlock>): (r: (seq<Block>, Option<Block>))
    ensures answer.None? ==> r == (arr, None)
    ensures answer.Some? ==> && r.1 == Some(NormaliseBlock(answer.value))
                             && |r.0| == |arr| + 1 && r.0[..|arr|] == arr && r.0[|arr|] == r.1.value
  {
    match answer
    case None => (arr, None)
    case Some(s) => var item := NormaliseBlock(s); (arr + [item], Some(item))
  }

  function UpdateBlock(arr: seq<Block>, id: string, answer: Option<SavedBlock>): (r: (seq<Block>, Option<Block>))
    ensures answer.None? ==> r == (arr, None)
    ensures answer.Some? ==> && r.1 == Some(NormaliseBlock(answer.value))
                             && |r.0| == |arr|
                             && (forall i :: 0 <= i < |arr| && arr[i].id == Some(id) ==> r.0[i] == r.1.value)
                             && (forall i :: 0 <= i < |arr| && arr[i].id != Some(id) ==> r.0[i] == arr[i])
  {
    match answer
    case None => (arr, None)
    case Some(s) => var item := NormaliseBlock(s); (ReplaceWhere(arr, BlockId, id, item), Some(item))
  }

  /** `deleteBlock`: on an OK answer every block with the id goes and
      every other block stays, in order and with all its copies. */
  function DeleteBlock(arr: seq<Block>, id: string, ok: bool): (r: seq<Block>)
    ensures !ok ==> r == arr
    ensures ok ==> forall i :: 0 <= i < |r| ==> r[i].id != Some(id) && r[i] in arr
    ensures ok ==> forall i :: 0 <= i < |arr| && arr[i].id != Some(id) ==> arr[i] in r
    ensures ok ==> multiset(r) <= multiset(arr)
    ensures ok ==> forall i :: 0 <= i < |arr| && arr[i].id != Some(id) ==> multiset(r)[arr[i]] == multiset(arr)[arr[i]]
    ensures ok ==> forall k :: 0 <= k <= |arr| ==> r == RemoveWhere(arr[..k], BlockId, id) + RemoveWhere(arr[k..], BlockId, id)
  {
    RemoveWhereSplits(arr, BlockId, id);
    if ok then RemoveWhere(arr, BlockId, id) else arr
  }

  /** A task created and then deleted by its backend id leaves the page's
      list as deleting that id alone would. */
  lemma CreateThenDeleteTask(arr: seq<Item>, s: SavedTask, id: string)
    requires s.mongoId == Some(id)
    ensures DeleteTask(CreateTask(arr, Some(s)).0, id, true) == DeleteTask(arr, id, true)
  {
    CreateThenDelete(arr, TaskId, id, Normalise(s));
  }
}
